=== FILE: README.md ===
# wpkg: the Debian build policy and the command-line rules

This project models the decision logic of wpkg, a Windows packager that turns
a staging directory into a Debian binary package (`.deb`), and states what
that logic guarantees. Two source files are covered.

- **`Builder.cs`**: the choices made before any byte is written.
  - **Tar entries (`AddToTar`).** One entry per file or directory, written in
    pre-order. Ownership is forced to `0/0 root/root`. The mode is 755 for
    directories and for files whose full name contains `/usr/bin/` or ends in
    `.exe`; every other file gets 644. These are the decimal numbers the
    source writes as `0755` and `0644`.
  - **Data tarball.** Takes every top-level directory except one named
    exactly `DEBIAN`.
  - **Control tarball.** Takes only the files `control`, `preinst`,
    `postinst`, `prerm` and `postrm` found directly in `DEBIAN`.
  - **Output file name.** Derived from `DEBIAN/control` with the multiline
    regular expression `(?<=^Package:\s*).*$`, then `.deb` is appended.
  - **Archive root path.** Backslashes become `/`, then one trailing `/` is
    stripped.
  - **Package archive.** The ar member sequence of `BuildPackage`.
  - **Stream paths.** The files `CreateStream` opens.
- **`Program.cs`**:
  - the dispatch of `Main` on its arguments;
  - the structure check `VerifyStructure`;
  - the build and extraction pipelines;
  - `ExitWithMessage`, which ends the process.

The filesystem is a value. A `Node` is a named file or a directory holding a
sequence of nodes, in the order the operating system enumerates them. A
`Folder` is a directory as the program names it, together with its resolved
full name. `Env` answers `File.Exists` and `Directory.Exists`, and holds the
set of files the extractor would accept as Debian binaries.

A run of `Main` is a value `Run(steps, end)`:
- `steps` lists what the program does, in order;
- `end` is one of `Returned`, `Exited(code)`, or `Crashed(error)` for a .NET
  exception that escapes.

The program is modelled on Windows, the host it is written for.
- `VerifyStructure` and `BuildControlTarball` find the metadata by gluing
  `\DEBIAN\control` and `\DEBIAN` onto the staging directory. Only on
  Windows do these paths name the directory `DEBIAN` inside it.
- Full names therefore use `\`. So the `/usr/bin/` test can never succeed, and
  only `.exe` files become executable (`TarPolicy.WindowsOnlyExeIsExecutable`).
  The sample tree shows this concretely (`Scenario.WindowsSampleBuild`).
- `AddToTar` and `BuildDataTarball` do not depend on the host. They take the
  separator as a parameter, and `Scenario.UnixSampleData` works the data
  tarball out with `/` full names.

What the code does, where a reader might expect otherwise:
- **Package name is not trimmed.** The name is the raw rest of the first
  `Package:` line. So `Package: sample` yields ` sample.deb`, with a leading
  blank, and a `\r` before the line break stays in the name. A control text
  without a `Package:` line yields `.deb` rather than an error.
- **Windows line breaks break packaging.** A control file with `\r\n` line
  breaks leaves a `\r` in the name, which Windows rejects, so `File.Create`
  throws after both tarballs are open (`Builder.CrLfControlFileThrows`). The
  template `--theme` writes with `File.WriteAllLines` has such line breaks.
- **Maintainer scripts get 644.** dpkg expects `preinst`, `postinst`, `prerm`
  and `postrm` to be executable. The code gives them no mode of their own:
  they get 644 unless the `/usr/bin/` test or the `.exe` test fires
  (`Builder.ControlEntriesPlain`, `Scenario.SampleControl`).
- **The test is a substring.** A file is executable when its full name
  contains `/usr/bin/`. Files under `bin`, `sbin` or `usr/sbin` get 644.
- **Entries are not sorted.** Children are written in the order the
  operating system enumerates them, and the model keeps that order
  (`TarPolicy.AddAllKeepsOrder`, `Builder.PayloadDirsKeepsOrder`,
  `Builder.ControlMembersKeepsOrder`).
- **Temporary tarballs share the staging directory.** `control.tar` and
  `data.tar` are created inside the directory being packaged. A directory
  of either name there makes `File.Create` throw, even after the structure
  check passed (`Program.BuilderDebTypeOutcome`).
- **Plain tarballs.** The members are uncompressed `control.tar` and
  `data.tar`, and entry names carry no `./` prefix.
- **Modes are decimal.** The code writes `0755` and `0644`, which C# reads as
  the decimal numbers 755 and 644. The model keeps these numbers. A tar
  header stores a mode as octal digits, so the permission bits written are
  octal 1363 and 1204 rather than `rwxr-xr-x` and `rw-r--r--`.

Modules:
- `Text`: ordinal string tests.
- `FileTree`: nodes, `Path.Combine`, lookups.
- `TarPolicy`: `AddToTar`.
- `ControlFile`: the regular expression.
- `Builder`: the rest of `Builder.cs`.
- `Program`: `Main` and its helpers.
- `ProgramFacts`: properties over all argument lists.
- `Scenario`: a sample staging tree, worked out end to end.

## Model

| member | source | states |
|---|---|---|
| FileTree.Combine | Builder.cs:54 | The full name of an entry starts with its directory's full name and ends with its own name. It is at most one character longer than the two together, and every character comes from them or is the separator. |
| TarPolicy.PolicyMode | Builder.cs:59-62 | Directories get 755. A file gets 755 exactly when its full name contains `/usr/bin/` or ends in `.exe`, and 644 otherwise. No other mode occurs. |
| TarPolicy.AddToTar | Builder.cs:52-69 | A subtree of n nodes yields exactly n entries. The first entry is the node itself, with its full name and kind; every later entry lies below it. For a directory the later entries are exactly those of its children, written from its full name (pre-order). Every entry is owned by 0/0 root/root and has the policy mode. |
| TarPolicy.AddAll | Builder.cs:65-68 | The children of a directory yield as many entries as their subtrees have nodes, all following the policy and all below the directory's full name. |
| TarPolicy.AddAllKeepsOrder | Builder.cs:65-68 | Two listings in a row give the first one's entries and then the second one's, and one node gives exactly its own subtree. So each child's subtree is one contiguous block, in enumeration order. |
| TarPolicy.AddAllCoversListing | Builder.cs:65-68 | Every child of a directory gets its own entry, at its full name and with its kind. |
| TarPolicy.AddAllWithinListing | Builder.cs:65-68 | Every entry produced from a listing is an entry of the subtree of one listed node, so nothing else is written. Its path also starts with that node's full name. |
| TarPolicy.WindowsOnlyExeIsExecutable | Builder.cs:59-62 | With Windows separators in full names, a file is 755 exactly when its full name ends in `.exe`; the `/usr/bin/` test never fires. |
| TarPolicy.PathsAvoid | Builder.cs:54 | An entry's full name is built only from the starting directory, the node names and the separator; a character absent from all of them appears in no entry. |
| Builder.NormalizeRoot | Builder.cs:77-82 | The root path has no `\`. Each character is the input's, with `\` turned into `/`. It is one character shorter than the input exactly when the input ends in `/` or `\`, and otherwise has the same length. |
| Builder.NormalizeRootStable | Builder.cs:106-110 | Only one trailing `/` is stripped: normalising again changes nothing exactly when the first result does not end in `/`. |
| Builder.NormalizeRootExample | Builder.cs:78-82 | `C:\pkg\\` becomes `C:/pkg/`: the second separator survives. |
| Builder.PayloadDirs | Builder.cs:84-93 | A top-level node is taken for the data tarball exactly when it is a directory not named exactly `DEBIAN`. |
| Builder.PayloadDirsKeepsOrder | Builder.cs:84-93 | The filter works piece by piece on the listing, keeping enumeration order and each node once. |
| Builder.DataTarball | Builder.cs:75-93 | The data tarball has the normalised root path and one entry per node of the taken directories. Every entry follows the policy and lies below the staging directory. |
| Builder.BuildDataTarball | Builder.cs:70-96 | Creating `data.tar` fails with an access error on `<dir>\data.tar` exactly when the staging directory holds a directory of that name. Otherwise the entries are those of the taken directories, in order. |
| Builder.DataEntriesUnderPayload | Builder.cs:84-93 | Every data entry is an entry of the subtree of a top-level directory other than `DEBIAN`, so no top-level file and nothing of `DEBIAN` is included. Its full name also starts with that directory's. |
| Builder.DataTarballCoversPayload | Builder.cs:84-93 | Every top-level directory other than `DEBIAN` has a directory entry at its full name. |
| Builder.ReadControl | Builder.cs:113 | Reading `DEBIAN\control` succeeds exactly when it is a file inside a directory `DEBIAN`, and yields that file's content. A missing `DEBIAN` is a missing directory, a missing `control` is a missing file, and a directory named `control` is an access error. |
| Builder.ControlMembers | Builder.cs:118-128 | A node of `DEBIAN` is taken exactly when it is a file named `control`, `preinst`, `postinst`, `prerm` or `postrm`. |
| Builder.ControlMembersKeepsOrder | Builder.cs:118-128 | The filter works piece by piece on the listing, keeping enumeration order and each file once. |
| Builder.FilesOneEntryEach | Builder.cs:119-127 | A listing of plain files yields one entry per file, in order, at each file's full name. |
| Builder.BuildControlTarball | Builder.cs:98-131 | A directory named `control.tar` in the staging directory makes `File.Create` fail with an access error on `<dir>\control.tar`, before the control file is read. Otherwise building succeeds exactly when `DEBIAN\control` is a file. On success the file name is derived from its content and the root path is normalised. The k-th entry is the k-th member file, at its `\`-separated full name under `DEBIAN`, as a regular file following the policy. |
| Builder.ControlMemberHasEntry | Builder.cs:118-128 | Every member file of `DEBIAN` has an entry in the control tarball. |
| Builder.ControlEntryFromMember | Builder.cs:118-128 | Every control entry is the entry of a member file of `DEBIAN`. |
| Builder.ControlTarballExact | Builder.cs:118-128 | Both directions at once: the control entries are exactly the member files of `DEBIAN`. |
| Builder.ControlNameNotExe | Builder.cs:122 | None of the five member names ends in `.exe`. |
| Builder.ControlEntryPlain | Builder.cs:59-62 | A member file's entry is 644 unless its full name passes the `/usr/bin/` test; maintainer scripts get no mode of their own. |
| Builder.ControlEntriesPlain | Builder.cs:118-128 | Every control entry is 644 unless its full name contains `/usr/bin/`. |
| Builder.StreamPath | Builder.cs:133-147 | Types 0 and 1 read `control.tar` and `data.tar` respectively, one `\` below the location. Every other type reads the location itself. |
| Builder.StreamPathsDistinct | Builder.cs:133-147 | The control and data temporary files of a directory are different paths, and neither is the directory path itself. |
| Builder.LocalFilePath | Builder.cs:160-164 | The one-argument stream opens the given name one `\` below the local directory. The path starts with the directory, then that single separator, then the name. |
| Builder.ArchiveListing | Builder.cs:35-38 | The archive names `debian-binary`, `control.tar`, `data.tar` in that order, and copies the control tarball before the data tarball. |
| Builder.BuildPackage | Builder.cs:18-50 | A missing working directory throws at the first stream, since `CreateStream` catches only a missing file. An existing directory with a missing temporary tarball aborts with 500. With both tarballs open, the package is written exactly when the name has only characters Windows accepts, the directory the output lands in exists, and no directory has the output's name. Otherwise `File.Create` throws for the output path, with an invalid-name error exactly when the name has a rejected character. A written archive is magic, then `debian-binary` with body `2.0\n`, then `control.tar` copying `<dir>\control.tar`, then `data.tar` copying `<dir>\data.tar`, all with the same member mode. Those two files are the ones deleted. The output is `<dir>\<name>`, where dir is the local directory for an empty path. |
| Builder.ParentPath | Builder.cs:40 | The directory `File.Create` writes into is the output path up to its last separator, with no separator after it. |
| Builder.PlainNameWritten | Builder.cs:40 | A name of accepted characters without separators is written into the working directory, unless a directory already has the output's name. |
| Builder.CrLfControlFileThrows | Builder.cs:40 | A control file whose `Package:` line ends in `\r\n` gives a name ending in `\r.deb`. Packaging then throws an invalid-name error once both tarballs are open. |
| ControlFile.FindPackageLine | Builder.cs:114 | Finds the first line at or after a position that starts with `Package:`, or reports that none exists. |
| ControlFile.PackageValue | Builder.cs:114 | The value never contains a line break, and it is empty when no line starts with `Package:`. |
| ControlFile.DebFileNameFromPackageLine | Builder.cs:114 | Without a line starting with `Package:`, the file name is `.deb`. Otherwise it is the rest of the first such line after the colon, blanks and any `\r` included, followed by `.deb`. |
| ControlFile.PackageValueIsFirstMatch | Builder.cs:114 | The value is what the regular expression yields. It is empty when the pattern matches nowhere; otherwise it is the rest of the line from the first position where the lookbehind holds. |
| ControlFile.MatchExistsIffPackageLine | Builder.cs:114 | The pattern matches somewhere exactly when some line starts with `Package:`. |
| ControlFile.SampleControlName | Builder.cs:114 | `Package: sample` followed by a line break gives ` sample.deb`, keeping the blank. |
| ControlFile.CrLfLineKeepsReturn | Builder.cs:114 | A text starting with a `Package:` line that ends in `\r\n` gives the rest of that line, `\r` included, followed by `.deb`. |
| ControlFile.CarriageReturnKept | Builder.cs:114 | A later `Package:` line ending in `\r\n` gives a value that keeps the `\r`. |
| ControlFile.MissingPackageLine | Builder.cs:114 | A control text without a `Package:` line gives the file name `.deb`. |
| Program.ExitWithMessageIsTerminal | Program.cs:243-247 | After `ExitWithMessage` nothing else runs: the run exits with the given code and its only step is the message. |
| Program.Split | Program.cs:74 | Splitting on `;` and `,` gives one piece more than there are separators, and no piece contains a separator. |
| Program.SplitRoundTrip | Program.cs:74 | The pieces, rejoined with the separators that were removed, give back the original list. |
| FileTree.LastSeparator | Program.cs:137 | Finds the last `\` or `/` of a path, with no separator after it. |
| Program.DirectoryName | Program.cs:137 | The parent of a path containing `\` is a non-empty prefix of it, and no separator follows it in the path. |
| Program.VerifyStructure | Program.cs:217-236 | The check passes exactly when the directory exists, has a subdirectory and has a file `DEBIAN\control`. Then it takes no step. An existing directory that fails prints the structure message and exits with 400. |
| Program.StructureOkGivesControlTarball | Program.cs:182-183 | After a passed structure check, building the control tarball fails exactly when a directory is named `control.tar`, and then with an access error on `<dir>\control.tar`. |
| Program.BuilderDebType | Program.cs:179-186 | A Debian build returns only for an existing directory that passed the structure check. Its only exit is the structure failure with 400. |
| Program.BuilderDebTypeOutcome | Program.cs:179-186 | A Debian build returns exactly when the structure check passes and neither `control.tar` nor `data.tar` is a directory. It then writes the control tarball, the data tarball and the package, in that order and for the same directory. After a passed check, a `control.tar` directory throws before anything is written. A `data.tar` directory throws after the control tarball is written. A failed check takes message steps only. |
| Program.ExtractorType | Program.cs:193-215 | A file that is not a Debian binary exits with 300 at once. A stream is opened only for a checked Debian binary, right after its name was taken. It never throws, and exits only with 300 or 500. |
| Program.ExtractCommand | Program.cs:115-156 | `-x` never throws. It exits only with 100, 300 or 500. |
| Program.ThemeCommand | Program.cs:157-169 | `--theme` exits exactly when it is not given one name, and then with 100 and the argument message. Every path it passes to `CreateDirectory` starts with the string `<local>\Library\Themes\<name>.theme`. |
| Program.Dispatch | Program.cs:57-177 | `Main` exits with -1 exactly when it has no arguments. Among the modelled failures, only `-b` can let an exception escape. |
| ProgramFacts.RpmBuildUnchecked | Program.cs:187-191 | `-r` runs no structure check: unlike `-b` it never exits with 400 and takes no Debian build step. When it returns, its one step assembles the rpm package in the named directory or the local one. |
| ProgramFacts.NoArgumentsShowsHelp | Program.cs:64-68 | With no arguments the help text is shown and the process exits with -1. |
| ProgramFacts.BuildDispatch | Program.cs:81-114 | `-b` and `-r` with exactly one existing directory build there; with a missing one they exit with 200; with any other argument count they build in the local directory. |
| ProgramFacts.ExtractWithTarget | Program.cs:116-129 | `-x` with a file and a target extracts only when both exist, and otherwise exits with 100. |
| ProgramFacts.ExtractBesideFile | Program.cs:133-143 | `-x` with a path containing `\` exits with 100 when the file is missing; otherwise it extracts into the file's parent directory. |
| ProgramFacts.ExtractInLocalDirectory | Program.cs:144-154 | `-x` with a bare name exits with 300 when the local file is missing; otherwise it extracts that file into the local directory. |
| ProgramFacts.ExtractOtherCounts | Program.cs:115-156 | `-x` with any other argument count does nothing and returns. |
| ProgramFacts.HelpOnly | Program.cs:170-175 | `-h` and every unknown first argument only show the help text. |
| ProgramFacts.ThemeNeedsOneName | Program.cs:157-161 | `--theme` with an argument count other than two exits with 100 before any directory is created. |
| ProgramFacts.Dos2UnixList | Program.cs:71-80 | `-d2u` with one list hands over its pieces, which rebuild the list. |
| ProgramFacts.BuilderDebTypeValidated | Program.cs:179-186 | Tarballs are written only for a directory that passed the structure check, control before data before the package. A build that exits with 400 writes no tarball. |
| ProgramFacts.DebBuildValidatesFirst | Program.cs:98-114 | The same holds for every argument list: any control tarball follows a passed structure check, and an exit with 400 leaves no tarball. |
| ProgramFacts.OtherCommandsBuildNothing | Program.cs:69-176 | Every command other than a `-b` that reaches `BuilderDebType` takes no step of a Debian build. |
| ProgramFacts.ExtractorTypeChecked | Program.cs:193-207 | `ExtractorType` opens only the file it checked: an existing Debian binary. It extracts only from the stream it has just opened. |
| ProgramFacts.ExtractionChecksFirst | Program.cs:115-156 | For every argument list, a package is opened only when it exists and is a Debian binary, and it is extracted only right after it was opened. |
| ProgramFacts.NonDebianRejected | Program.cs:209-215 | When no candidate file is a Debian binary, `-x` opens no stream and either exits or does nothing. |
| ProgramFacts.ExitCodes | Program.cs:57-177 | `Main` exits only with -1, 100, 200, 300, 400 or 500, and each exit comes right after a message or the help text. |
| ProgramFacts.BuilderDebTypeCrash | Program.cs:179-186 | A Debian build throws exactly when its directory cannot be listed, or when it passed the check but a temporary tarball's name is taken by a directory. The error is then directory-not-found, or an access error on `<dir>\control.tar` or `<dir>\data.tar`. |
| ProgramFacts.CrashCauses | Program.cs:98-114 | Among the modelled failures, an exception escapes `Main` only from `-b`. Either it has no directory argument and the local directory cannot be listed, or the staging directory exists and the error is an access error on one of its temporary tarballs. |
| Scenario.SampleControl | Builder.cs:112-128 | The sample's control tarball is named ` sample.deb`, and its two entries, `control` and `postinst`, both get 644. This holds for any staging root without `/`. |
| Scenario.UnixSampleData | Builder.cs:84-93 | With `/` full names, all three data entries of the sample are 755: the two directories, and `usr/bin/app`, which passes the `/usr/bin/` test. This holds for any non-empty staging root not ending in `/`. |
| Scenario.WindowsSampleData | Builder.cs:59-62 | With `\` full names the same tree gives data modes 755, 755, 644, because `usr\bin\app` fails both tests. This holds for any staging root without `/`. |
| Scenario.WindowsSampleBuild | Program.cs:179-186 | `-b` on the sample tree returns after three steps. It writes the control tarball ` sample.deb` with modes 644, 644, then the data tarball with modes 755, 755, 644, then assembles the package. |
| Scenario.MetadataAloneIsEnough | Program.cs:219-230 | A directory holding only `DEBIAN` with a `control` file passes the check: `DEBIAN` itself counts as the required subdirectory. |
| Scenario.MissingControlStops | Program.cs:227-235 | Without `DEBIAN\control`, `-b` prints the structure message and exits with 400, writing nothing. |

## Left out

- The byte encoding of tar headers, and the stripping of the root path from entry names. Both are done inside the tar library, which is not part of this model. Entries carry full names, and the root path is recorded beside them.
- The ar header byte layout and `LFileMode`'s numeric values. Only the member sequence and the fact that every member has the same mode set are modelled.
- `BuildDebPackage`, `BuildRPMPackage`, `Dos2Unix` and the `Extractor` class are not part of this model. `Main` reaches them as single steps, and `Extractor.IsDebianBinary` is an input set.
- `GetCaseSensitivePath` and the working-directory changes at the start of `Main`. These are filesystem queries and process-wide state; the local directory is an input.
- Stream copying, the bytes written and temporary-file deletion are I/O. `BuildPackage` records which paths it reads and removes. File creation is modelled only for a name taken by a directory and, in `BuildPackage`, for a name Windows rejects.
- Console output: the help text, `ColorizedMessage` and the "Building" line. A printed error message appears only as a step.
- The contents `GenerateControlFile` writes, and the directories `--theme` creates. These appear as steps only.
- DefaultShell.cs, a platform switch for external tools.
- Hosts other than Windows. There `\` is an ordinary file-name character, so `directory + "\\DEBIAN\\control"` names one file beside the staging directory. `-b` would then exit with 400 unless such a file exists. The model checks and reads the control file as on Windows; only `AddToTar` and `BuildDataTarball` take the separator as a parameter.
- Program.DirectoryName: handles paths with a backslash and a drive prefix. It does not model the UNC, device-path and repeated-separator rules of `Path.GetDirectoryName`. On Windows that function also turns `/` into `\`, so `a/b\c` gives `a\b` where the model gives `a/b`. Its contract does not pin the parent beyond prefix and separator facts.
- Program.Env: `files` and `dirs` are independent inputs. No consistency between a path in `files` and a file node of a directory tree is assumed or checked, because `-x` consults only `files` and `-b` consults only the trees.
- FileTree.Find: names are compared exactly. The case-insensitive lookups of `File.Exists` and `Directory.Exists` on Windows are not modelled.
- TarPolicy.ExecutablePath: `EndsWith(".exe")` is modelled as an ordinal comparison. .NET's culture-sensitive default can differ for unusual characters.
- Builder.BuildPackage: the directory of the output is looked up as written. `/`, `.` and `..` inside a name are not resolved. Reserved device names such as `CON.deb`, path-length limits and read-only files are not modelled, and `:` counts as rejected, as .NET Framework treats it; .NET on Windows may instead take it as naming an alternate data stream.
- Program.Dispatch: the steps of `--theme` cannot fail in the model. A name with a character Windows rejects makes `Directory.CreateDirectory` throw. `File.WriteAllLines` throws when `<local>\control` is read-only or is a directory. Neither exception is caught, so `Main` can also crash under `--theme`.
- ProgramFacts.CrashCauses: holds only among the modelled failures, for the same `--theme` exceptions.
- Program.ThemeCommand: the path is a string prefix, not a containment. A name such as `..\..\x` makes `CreateDirectory` resolve the path to a directory outside `<local>\Library\Themes`, and the model does not resolve `..`.
- Builder.StreamPath: opening a stream can also fail for reasons other than a missing file or directory (permissions, sharing). Only those two are modelled, in `BuildPackage`: a missing directory throws and a missing file exits with 500. In `ExtractorType` a missing stream file exits with 500, and a missing directory there is not modelled.
- Program.ExtractorType: a null argument is modelled as the empty string. `Path.GetFileNameWithoutExtension` appears only as a step naming the package.
- FileTree.Folder: the full name `DirectoryInfo` resolves a path to is an input. Relative paths are not resolved against the working directory.

=== FILE: builder.dfy ===
/**
 The decisions `Builder` takes before any byte is written: which nodes go
 into the control and data tarballs, the archive root path handed to the
 tar library, the output file name, which file each stream reads, and the
 member sequence of the package's ar archive.
 */
module Builder {
  import opened Text
  import opened FileTree
  import opened TarPolicy
  import opened ControlFile

  const MetadataDirectory: string := "DEBIAN"
  const ControlFileName: string := "control"
  /** The only names taken from the metadata directory into the control tarball. */
  const ControlMemberNames: set<string> := {"control", "preinst", "postinst", "prerm", "postrm"}

  const ControlTarName: string := "control.tar"
  const DataTarName: string := "data.tar"
  const VersionMemberName: string := "debian-binary"
  /** `new Version(2, 0) + "\n"`. */
  const VersionMemberText: string := "2.0\n"

  /** The separator in the full names of the control tarball. Only on Windows
      does `directory + "\\DEBIAN"` name the metadata directory inside the
      staging directory, so the control tarball is modelled for that host. */
  const Backslash: char := '\\'

  const ExitFileError: int := 500
  const FileFailureMessage: string := "E: Specified file does not exist! Aborting..."

  /** A tar archive as handed to the tar library: the root path it strips
      from entry names and the entries in the order they are written. */
  datatype Tarball = Tarball(rootPath: string, entries: seq<Entry>)

  /** The control tarball, and the package file name derived alongside it. */
  datatype ControlTarball = ControlTarball(debFileName: string, tar: Tarball)

  // ---------------------------------------------------------------------
  // Root path

  function ForwardSlashes(s: string): (r: string)
    ensures |r| == |s|
    ensures forall i :: 0 <= i < |s| ==> r[i] == (if s[i] == '\\' then '/' else s[i])
  {
    if s == [] then []
    else [if s[0] == '\\' then '/' else s[0]] + ForwardSlashes(s[1..])
  }

  /** `RootPath`: every `\` becomes `/`, then one trailing `/` is removed. */
  function NormalizeRoot(directory: string): (r: string)
    ensures '\\' !in r
    ensures |r| <= |directory| <= |r| + 1
    ensures forall i :: 0 <= i < |r| ==> r[i] == (if directory[i] == '\\' then '/' else directory[i])
    ensures |r| < |directory| <==>
      |directory| > 0 && (directory[|directory| - 1] == '/' || directory[|directory| - 1] == '\\')
  {
    var slashed := ForwardSlashes(directory);
    var r := if EndsWith(slashed, "/") then slashed[..|slashed| - 1] else slashed;
    assert forall i :: 0 <= i < |r| ==> r[i] == slashed[i];
    r
  }

  /** Only one trailing separator is removed, so normalising again changes
      the result exactly when the first result still ends in `/`. */
  lemma NormalizeRootStable(directory: string)
    ensures NormalizeRoot(NormalizeRoot(directory)) == NormalizeRoot(directory) <==>
      !EndsWith(NormalizeRoot(directory), "/")
  {
    var r := NormalizeRoot(directory);
    var r2 := NormalizeRoot(r);
    if EndsWith(r, "/") {
      assert |r2| < |r|;
    } else {
      assert |r2| == |r|;
      assert forall i :: 0 <= i < |r| ==> r2[i] == r[i];
    }
  }

  lemma NormalizeRootExample()
    ensures NormalizeRoot("C:\\pkg\\\\") == "C:/pkg/"
  {
    var r := NormalizeRoot("C:\\pkg\\\\");
    assert |r| == 7;
  }

  // ---------------------------------------------------------------------
  // Data tarball

  /** A top-level entry the data tarball takes: a directory not named
      exactly `DEBIAN`. */
  predicate IsPayloadDir(n: Node) {
    n.Dir? && n.name != MetadataDirectory
  }

  function PayloadDirs(ns: seq<Node>): (r: seq<Node>)
    ensures forall n :: n in r <==> n in ns && IsPayloadDir(n)
    ensures |r| <= |ns|
  {
    if ns == [] then []
    else (if IsPayloadDir(ns[0]) then [ns[0]] else []) + PayloadDirs(ns[1..])
  }

  /** The filter keeps the enumeration order and each node at most once:
      it works on a listing piece by piece. */
  lemma {:induction false} PayloadDirsKeepsOrder(a: seq<Node>, b: seq<Node>, n: Node)
    ensures PayloadDirs(a + b) == PayloadDirs(a) + PayloadDirs(b)
    ensures PayloadDirs([n]) == if IsPayloadDir(n) then [n] else []
  {
    assert [n][1..] == [];
    if a == [] {
      assert a + b == b;
    } else {
      assert (a + b)[0] == a[0];
      assert (a + b)[1..] == a[1..] + b;
      PayloadDirsKeepsOrder(a[1..], b, n);
    }
  }

  /** `File.Create(directory + "\\" + name)` of a temporary tarball: it
      fails when the staging directory holds a directory of that name. */
  predicate TarballCreatable(ns: seq<Node>, name: string) {
    Find(ns, name).None? || Find(ns, name).value.File?
  }

  /** The data tarball's contents: `AddToTar` for each payload directory in
      enumeration order. */
  function DataTarball(directory: string, folder: Folder, sep: char): (t: Tarball)
    ensures t.rootPath == NormalizeRoot(directory)
    ensures |t.entries| == CountAll(PayloadDirs(folder.children))
    ensures forall i :: 0 <= i < |t.entries| ==> FollowsPolicy(t.entries[i])
    ensures forall i :: 0 <= i < |t.entries| ==> StartsWith(t.entries[i].path, folder.fullName)
  {
    Tarball(NormalizeRoot(directory), AddAll(PayloadDirs(folder.children), folder.fullName, sep))
  }

  /** `BuildDataTarball(directory)`: create `data.tar` beside the payload,
      which throws when a directory has that name, then write the contents. */
  function BuildDataTarball(directory: string, folder: Folder, sep: char): (r: Result<Tarball>)
    ensures r.Ok? <==> TarballCreatable(folder.children, DataTarName)
    ensures r.Err? ==> r.error == AccessDenied(StreamPath(directory, 1))
    ensures r.Ok? ==> r.value.entries == AddAll(PayloadDirs(folder.children), folder.fullName, sep)
  {
    if !TarballCreatable(folder.children, DataTarName) then Err(AccessDenied(StreamPath(directory, 1)))
    else Ok(DataTarball(directory, folder, sep))
  }

  /** Every data entry is an entry of the subtree of a top-level directory
      other than `DEBIAN`, and its full name starts with that directory's:
      no top-level file and nothing of `DEBIAN` is taken. */
  lemma DataEntriesUnderPayload(directory: string, folder: Folder, sep: char, i: nat)
    requires i < |DataTarball(directory, folder, sep).entries|
    ensures exists d, j ::
      d in folder.children && IsPayloadDir(d) && 0 <= j < |AddToTar(d, folder.fullName, sep)| &&
      DataTarball(directory, folder, sep).entries[i] == AddToTar(d, folder.fullName, sep)[j]
    ensures exists d :: (d in folder.children && IsPayloadDir(d) &&
      UnderNode(DataTarball(directory, folder, sep).entries[i], folder.fullName, d, sep))
  {
    var ds := PayloadDirs(folder.children);
    AddAllWithinListing(ds, folder.fullName, sep, i);
    var k :| 0 <= k < |ds| && UnderNode(AddAll(ds, folder.fullName, sep)[i], folder.fullName, ds[k], sep);
    assert ds[k] in ds;
    var k', j :| 0 <= k' < |ds| && 0 <= j < |AddToTar(ds[k'], folder.fullName, sep)| &&
      AddAll(ds, folder.fullName, sep)[i] == AddToTar(ds[k'], folder.fullName, sep)[j];
    assert ds[k'] in ds;
  }

  /** Conversely every top-level directory other than `DEBIAN` has its own
      directory entry in the data tarball. */
  lemma DataTarballCoversPayload(directory: string, folder: Folder, sep: char, d: Node)
    requires d in folder.children && IsPayloadDir(d)
    ensures HasEntry(DataTarball(directory, folder, sep).entries,
                     Combine(folder.fullName, d.name, sep), Directory)
  {
    var ds := PayloadDirs(folder.children);
    assert d in ds;
    var k :| 0 <= k < |ds| && ds[k] == d;
    AddAllCoversListing(ds, folder.fullName, sep, k);
  }

  // ---------------------------------------------------------------------
  // Control tarball

  /** The listing of `DEBIAN`, when it is a directory. */
  function MetadataListing(ns: seq<Node>): (r: Option<seq<Node>>)
    ensures r.Some? <==> Find(ns, MetadataDirectory).Some? && Find(ns, MetadataDirectory).value.Dir?
  {
    match Find(ns, MetadataDirectory)
    case Some(Dir(_, listing)) => Some(listing)
    case _ => None
  }

  /** `DEBIAN\control` exists and is a file (File.Exists). */
  predicate HasControlFile(ns: seq<Node>) {
    MetadataListing(ns).Some? &&
    Find(MetadataListing(ns).value, ControlFileName).Some? &&
    Find(MetadataListing(ns).value, ControlFileName).value.File?
  }

  /** `File.ReadAllText(directory + "\\DEBIAN\\control")`. */
  function ReadControl(directory: string, ns: seq<Node>): (r: Result<string>)
    ensures r.Ok? <==> HasControlFile(ns)
    ensures r.Ok? ==> File(ControlFileName, r.value) in MetadataListing(ns).value
    ensures MetadataListing(ns).None? ==> r.Err? && r.error.DirectoryNotFound?
    ensures MetadataListing(ns).Some? && Find(MetadataListing(ns).value, ControlFileName).None? ==>
      r.Err? && r.error.FileNotFound?
    ensures r.Err? && MetadataListing(ns).Some? && Find(MetadataListing(ns).value, ControlFileName).Some? ==>
      r.error.AccessDenied?
  {
    var path := directory + "\\DEBIAN\\control";
    match MetadataListing(ns)
    case None => Err(DirectoryNotFound(directory + "\\DEBIAN"))
    case Some(listing) =>
      match Find(listing, ControlFileName)
      case None => Err(FileNotFound(path))
      case Some(File(_, text)) => Ok(text)
      case Some(Dir(_, _)) => Err(AccessDenied(path))
  }

  /** A file of `DEBIAN` that the control tarball takes. */
  predicate IsControlMember(n: Node) {
    n.File? && n.name in ControlMemberNames
  }

  function ControlMembers(ns: seq<Node>): (r: seq<Node>)
    ensures forall n :: n in r <==> n in ns && IsControlMember(n)
    ensures forall k :: 0 <= k < |r| ==> IsControlMember(r[k])
  {
    if ns == [] then []
    else (if IsControlMember(ns[0]) then [ns[0]] else []) + ControlMembers(ns[1..])
  }

  /** The filter keeps the enumeration order and each file at most once. */
  lemma {:induction false} ControlMembersKeepsOrder(a: seq<Node>, b: seq<Node>, n: Node)
    ensures ControlMembers(a + b) == ControlMembers(a) + ControlMembers(b)
    ensures ControlMembers([n]) == if IsControlMember(n) then [n] else []
  {
    assert [n][1..] == [];
    if a == [] {
      assert a + b == b;
    } else {
      assert (a + b)[0] == a[0];
      assert (a + b)[1..] == a[1..] + b;
      ControlMembersKeepsOrder(a[1..], b, n);
    }
  }

  /** A listing of plain files yields one entry per file, in order. */
  lemma {:induction false} FilesOneEntryEach(ns: seq<Node>, parent: string, sep: char)
    requires forall k :: 0 <= k < |ns| ==> ns[k].File?
    ensures |AddAll(ns, parent, sep)| == |ns|
    ensures forall k :: 0 <= k < |ns| ==>
      AddAll(ns, parent, sep)[k].path == Combine(parent, ns[k].name, sep) &&
      AddAll(ns, parent, sep)[k].kind == RegularFile
  {
    if ns != [] {
      FilesOneEntryEach(ns[1..], parent, sep);
      var r := AddAll(ns, parent, sep);
      var tail := AddAll(ns[1..], parent, sep);
      assert r == AddToTar(ns[0], parent, sep) + tail;
      assert |AddToTar(ns[0], parent, sep)| == 1;
      forall k | 1 <= k < |ns|
        ensures r[k].path == Combine(parent, ns[k].name, sep) && r[k].kind == RegularFile
      {
        assert r[k] == tail[k - 1];
        assert ns[1..][k - 1] == ns[k];
      }
    }
  }

  /** `BuildControlTarball(directory)`: create `control.tar` in the staging
      directory, which throws when a directory has that name; then the
      package file name from the control file, then `AddToTar` for each
      control member of `DEBIAN` in enumeration order. */
  function BuildControlTarball(directory: string, folder: Folder): (r: Result<ControlTarball>)
    ensures r.Ok? <==> TarballCreatable(folder.children, ControlTarName) && HasControlFile(folder.children)
    ensures !TarballCreatable(folder.children, ControlTarName) ==> r == Err(AccessDenied(StreamPath(directory, 0)))
    ensures r.Ok? ==> r.value.debFileName == DebFileName(ReadControl(directory, folder.children).value)
    ensures r.Ok? ==> r.value.tar.rootPath == NormalizeRoot(directory)
    ensures r.Ok? ==>
      var members := ControlMembers(MetadataListing(folder.children).value);
      var meta := Combine(folder.fullName, MetadataDirectory, Backslash);
      |r.value.tar.entries| == |members| &&
      forall k :: 0 <= k < |members| ==>
        r.value.tar.entries[k].path == Combine(meta, members[k].name, Backslash) &&
        r.value.tar.entries[k].kind == RegularFile &&
        FollowsPolicy(r.value.tar.entries[k])
  {
    if !TarballCreatable(folder.children, ControlTarName) then Err(AccessDenied(StreamPath(directory, 0)))
    else
      match ReadControl(directory, folder.children)
      case Err(e) => Err(e)
      case Ok(text) =>
        var members := ControlMembers(MetadataListing(folder.children).value);
        var meta := Combine(folder.fullName, MetadataDirectory, Backslash);
        FilesOneEntryEach(members, meta, Backslash);
        Ok(ControlTarball(DebFileName(text), Tarball(NormalizeRoot(directory), AddAll(members, meta, Backslash))))
  }

  /** Every member file of `DEBIAN` has its own entry. */
  lemma ControlMemberHasEntry(directory: string, folder: Folder, n: Node)
    requires BuildControlTarball(directory, folder).Ok?
    requires n in MetadataListing(folder.children).value && IsControlMember(n)
    ensures HasEntry(BuildControlTarball(directory, folder).value.tar.entries,
      Combine(Combine(folder.fullName, MetadataDirectory, Backslash), n.name, Backslash), RegularFile)
  {
    var members := ControlMembers(MetadataListing(folder.children).value);
    var entries := BuildControlTarball(directory, folder).value.tar.entries;
    assert n in members;
    var k :| 0 <= k < |members| && members[k] == n;
    assert entries[k].path == Combine(Combine(folder.fullName, MetadataDirectory, Backslash), n.name, Backslash);
  }

  /** Every control entry is the entry of one member file of `DEBIAN`. */
  lemma ControlEntryFromMember(directory: string, folder: Folder, e: Entry)
    requires BuildControlTarball(directory, folder).Ok?
    requires e in BuildControlTarball(directory, folder).value.tar.entries
    ensures exists m :: (m in MetadataListing(folder.children).value && IsControlMember(m) &&
      e.path == Combine(Combine(folder.fullName, MetadataDirectory, Backslash), m.name, Backslash))
  {
    var members := ControlMembers(MetadataListing(folder.children).value);
    var entries := BuildControlTarball(directory, folder).value.tar.entries;
    var k :| 0 <= k < |entries| && entries[k] == e;
    assert members[k] in members;
  }

  /** Every control entry names one of the five member files, and every
      such file of `DEBIAN` has an entry: nothing else is taken. */
  lemma ControlTarballExact(directory: string, folder: Folder, n: Node)
    requires BuildControlTarball(directory, folder).Ok?
    ensures n in MetadataListing(folder.children).value && IsControlMember(n) ==>
      HasEntry(BuildControlTarball(directory, folder).value.tar.entries,
               Combine(Combine(folder.fullName, MetadataDirectory, Backslash), n.name, Backslash), RegularFile)
    ensures forall e :: e in BuildControlTarball(directory, folder).value.tar.entries ==>
      exists m :: (m in MetadataListing(folder.children).value && IsControlMember(m) &&
        e.path == Combine(Combine(folder.fullName, MetadataDirectory, Backslash), m.name, Backslash))
  {
    if n in MetadataListing(folder.children).value && IsControlMember(n) {
      ControlMemberHasEntry(directory, folder, n);
    }
    forall e | e in BuildControlTarball(directory, folder).value.tar.entries
      ensures exists m :: (m in MetadataListing(folder.children).value && IsControlMember(m) &&
        e.path == Combine(Combine(folder.fullName, MetadataDirectory, Backslash), m.name, Backslash))
    {
      ControlEntryFromMember(directory, folder, e);
    }
  }

  /** None of the five member names ends in `.exe`. */
  lemma ControlNameNotExe(name: string)
    requires name in ControlMemberNames
    ensures !EndsWith(name, ExecutableSuffix)
  {
    assert name[|name| - 1] != 'e';
    assert name[|name| - |ExecutableSuffix|..][|ExecutableSuffix| - 1] == name[|name| - 1];
  }

  /** A policy-following file entry for a control member is plain unless
      its full path passes the `/usr/bin/` test. */
  lemma ControlEntryPlain(e: Entry, meta: string, name: string, sep: char)
    requires FollowsPolicy(e) && e.kind == RegularFile
    requires e.path == Combine(meta, name, sep) && name in ControlMemberNames
    ensures e.mode == PlainMode || Contains(e.path, ExecutableDirectory)
  {
    ControlNameNotExe(name);
    EndsWithWithin(e.path, name, ExecutableSuffix);
  }

  /** Maintainer scripts get no mode of their own: a control entry is
      executable only when its full path passes the `/usr/bin/` test. */
  lemma ControlEntriesPlain(directory: string, folder: Folder)
    requires BuildControlTarball(directory, folder).Ok?
    ensures forall e :: e in BuildControlTarball(directory, folder).value.tar.entries ==>
      e.mode == PlainMode || Contains(e.path, ExecutableDirectory)
  {
    var members := ControlMembers(MetadataListing(folder.children).value);
    var meta := Combine(folder.fullName, MetadataDirectory, Backslash);
    var entries := BuildControlTarball(directory, folder).value.tar.entries;
    forall k | 0 <= k < |entries|
      ensures entries[k].mode == PlainMode || Contains(entries[k].path, ExecutableDirectory)
    {
      ControlEntryPlain(entries[k], meta, members[k].name, Backslash);
    }
  }

  // ---------------------------------------------------------------------
  // Streams and the package

  /** `CreateStream(location, type)`: the file a stream reads. Type 0 is
      the control tarball and type 1 the data tarball, each one separator
      below `location`; any other type reads `location` itself. */
  function StreamPath(location: string, streamType: int): (p: string)
    ensures streamType == 0 || streamType == 1 ==>
      var name := if streamType == 0 then ControlTarName else DataTarName;
      |p| == |location| + 1 + |name| && StartsWith(p, location) && p[|location|] == '\\' &&
      EndsWith(p, name)
    ensures streamType != 0 && streamType != 1 ==> p == location
  {
    if streamType == 0 then
      location + "\\" + ControlTarName
    else if streamType == 1 then
      location + "\\" + DataTarName
    else
      location
  }

  /** The two temporary tarballs of a directory are distinct files, and
      neither is the directory itself. */
  lemma StreamPathsDistinct(location: string)
    ensures StreamPath(location, 0) != StreamPath(location, 1)
    ensures StreamPath(location, 0) != location && StreamPath(location, 1) != location
  {
    var c := StreamPath(location, 0);
    var d := StreamPath(location, 1);
    assert c[|location| + 1] == 'c' && d[|location| + 1] == 'd';
  }

  /** `CreateStream(fileName)`: a file of the local directory, one `\`
      below it. */
  function LocalFilePath(localDir: string, fileName: string): (p: string)
    ensures StartsWith(p, localDir) && EndsWith(p, fileName)
    ensures |p| == |localDir| + 1 + |fileName| && p[|localDir|] == '\\'
  {
    localDir + "\\" + fileName
  }

  /** Permission bits of every ar member (`ArFileMode`). */
  datatype ModeBit = OwnerRead | OwnerWrite | GroupRead | OthersRead | RegularFileType

  const ArFileMode: set<ModeBit> := {OwnerRead, OwnerWrite, GroupRead, OthersRead, RegularFileType}

  datatype ArBody = Literal(text: string) | Contents(path: string)

  datatype ArItem = Magic | Member(name: string, mode: set<ModeBit>, body: ArBody)

  datatype PackageOutcome =
    | Thrown(error: FsError)
    | Aborted(message: string, code: int)
    | Written(output: string, archive: seq<ArItem>, removed: seq<string>)

  function MemberNames(items: seq<ArItem>): seq<string> {
    if items == [] then []
    else (if items[0].Member? then [items[0].name] else []) + MemberNames(items[1..])
  }

  /** The files whose contents the archive copies, in order. */
  function FilesRead(items: seq<ArItem>): seq<string> {
    if items == [] then []
    else
      var here := if items[0].Member? && items[0].body.Contents? then [items[0].body.path] else [];
      here + FilesRead(items[1..])
  }

  function WorkingDirectory(pathToPackage: string, localDir: string): string {
    if pathToPackage == "" then localDir else pathToPackage
  }

  /** The ar archive written from the two temporary tarballs. */
  function Archive(control: string, data: string): seq<ArItem> {
    [ Magic,
      Member(VersionMemberName, ArFileMode, Literal(VersionMemberText)),
      Member(ControlTarName, ArFileMode, Contents(control)),
      Member(DataTarName, ArFileMode, Contents(data))]
  }

  /** The archive names its three members in order and copies the control
      tarball before the data tarball. */
  lemma {:induction false} ArchiveListing(control: string, data: string)
    ensures MemberNames(Archive(control, data)) == [VersionMemberName, ControlTarName, DataTarName]
    ensures FilesRead(Archive(control, data)) == [control, data]
  {
    var archive := Archive(control, data);
    assert archive[3..][1..] == [];
    assert archive[2..][1..] == archive[3..] && archive[1..][1..] == archive[2..];
    assert MemberNames(archive[3..]) == [DataTarName] && FilesRead(archive[3..]) == [data];
    assert MemberNames(archive[2..]) == [ControlTarName, DataTarName];
    assert FilesRead(archive[2..]) == [control, data];
    assert MemberNames(archive[1..]) == [VersionMemberName, ControlTarName, DataTarName];
    assert FilesRead(archive[1..]) == [control, data];
  }

  /** A character Windows accepts in a file name: no control character and
      none of `" < > | : * ?`. */
  predicate NameChar(c: char) {
    c >= ' ' && c !in {'"', '<', '>', '|', ':', '*', '?'}
  }

  predicate CreatableName(name: string) {
    forall k :: 0 <= k < |name| ==> NameChar(name[k])
  }

  /** The directory `File.Create(path)` puts its file in: the part of `path`
      before its last separator, taken as written. */
  function ParentPath(path: string): (r: string)
    ensures StartsWith(path, r)
    ensures |r| < |path| ==> IsPathSeparator(path[|r|])
    ensures forall j :: |r| < j < |path| ==> !IsPathSeparator(path[j])
  {
    var k := LastSeparator(path);
    if k < 0 then path else path[..k]
  }

  /** For a name without separators the output lands in the working
      directory itself. */
  lemma {:induction false} ParentOfPlainName(dir: string, name: string)
    requires forall k :: 0 <= k < |name| ==> !IsPathSeparator(name[k])
    ensures ParentPath(dir + "\\" + name) == dir
  {
    var path := dir + "\\" + name;
    var k := LastSeparator(path);
    assert IsPathSeparator(path[|dir|]);
  }

  /** `BuildPackage(pathToPackage)`. `dirs` are the directories and `files`
      the files that exist; `debFileName` is the name the last control
      tarball derived. Opening a stream in a missing directory throws a
      `DirectoryNotFoundException`, which `CreateStream` does not catch; a
      missing file is caught and ends the process with 500. Once both
      streams are open, `File.Create` of the output throws for a name with a
      character Windows rejects, for a missing directory to put it in, and
      for an existing directory of that name. */
  function BuildPackage(pathToPackage: string, localDir: string, dirs: set<string>, files: set<string>,
                        debFileName: string): (r: PackageOutcome)
    ensures var dir := WorkingDirectory(pathToPackage, localDir);
      dir !in dirs ==> r == Thrown(DirectoryNotFound(StreamPath(dir, 0)))
    ensures var dir := WorkingDirectory(pathToPackage, localDir);
      r.Aborted? <==> dir in dirs && (StreamPath(dir, 0) !in files || StreamPath(dir, 1) !in files)
    ensures r.Aborted? ==> r.code == ExitFileError && r.message == FileFailureMessage
    ensures var dir := WorkingDirectory(pathToPackage, localDir);
      var output := dir + "\\" + debFileName;
      dir in dirs && StreamPath(dir, 0) in files && StreamPath(dir, 1) in files ==>
        && (r.Written? <==> CreatableName(debFileName) && ParentPath(output) in dirs && output !in dirs)
        && (r.Thrown? ==> r.error.path == output)
        && (r.Thrown? && r.error.InvalidName? <==> !CreatableName(debFileName))
    ensures r.Written? ==>
      && |r.archive| == 4
      && r.archive[0] == Magic
      && MemberNames(r.archive) == [VersionMemberName, ControlTarName, DataTarName]
      && r.archive[1] == Member(VersionMemberName, ArFileMode, Literal(VersionMemberText))
      && (forall k :: 1 <= k < 4 ==> r.archive[k].Member? && r.archive[k].mode == ArFileMode)
    ensures var dir := WorkingDirectory(pathToPackage, localDir);
      r.Written? ==>
        && r.archive[2].body == Contents(StreamPath(dir, 0))
        && r.archive[3].body == Contents(StreamPath(dir, 1))
        && r.removed == [StreamPath(dir, 0), StreamPath(dir, 1)]
    ensures r.Written? ==>
      FilesRead(r.archive) == r.removed &&
      (forall p :: p in r.removed ==> p in files)
    ensures r.Written? ==>
      r.output == WorkingDirectory(pathToPackage, localDir) + "\\" + debFileName
  {
    var dir := WorkingDirectory(pathToPackage, localDir);
    var control := StreamPath(dir, 0);
    var data := StreamPath(dir, 1);
    var output := dir + "\\" + debFileName;
    if dir !in dirs then Thrown(DirectoryNotFound(control))
    else if control !in files || data !in files then Aborted(FileFailureMessage, ExitFileError)
    else if !CreatableName(debFileName) then Thrown(InvalidName(output))
    else if ParentPath(output) !in dirs then Thrown(DirectoryNotFound(output))
    else if output in dirs then Thrown(AccessDenied(output))
    else
      var archive := Archive(control, data);
      ArchiveListing(control, data);
      // the files deleted afterwards are `WorkingDirectory + "\control.tar"` and
      // `WorkingDirectory + "\data.tar"`, the same names the streams read
      Written(output, archive, [control, data])
  }

  /** A plain name of accepted characters is written into the working
      directory, unless a directory already has the output's name. */
  lemma PlainNameWritten(pathToPackage: string, localDir: string, dirs: set<string>, files: set<string>,
                         debFileName: string)
    requires var dir := WorkingDirectory(pathToPackage, localDir);
      dir in dirs && StreamPath(dir, 0) in files && StreamPath(dir, 1) in files
    requires CreatableName(debFileName)
    requires forall k :: 0 <= k < |debFileName| ==> !IsPathSeparator(debFileName[k])
    requires WorkingDirectory(pathToPackage, localDir) + "\\" + debFileName !in dirs
    ensures BuildPackage(pathToPackage, localDir, dirs, files, debFileName).Written?
  {
    ParentOfPlainName(WorkingDirectory(pathToPackage, localDir), debFileName);
  }

  /** A control file with Windows line breaks, such as the template the
      `--theme` command writes with `File.WriteAllLines`, leaves a `\r` in
      the file name, so `File.Create` throws once both tarballs are open. */
  lemma CrLfControlFileThrows(value: string, rest: string, pathToPackage: string, localDir: string,
                              dirs: set<string>, files: set<string>)
    requires '\n' !in value
    requires var dir := WorkingDirectory(pathToPackage, localDir);
      dir in dirs && StreamPath(dir, 0) in files && StreamPath(dir, 1) in files
    ensures var name := DebFileName(PackageTag + value + "\r\n" + rest);
      && name == value + "\r" + DebSuffix
      && BuildPackage(pathToPackage, localDir, dirs, files, name) ==
           Thrown(InvalidName(WorkingDirectory(pathToPackage, localDir) + "\\" + name))
  {
    var name := DebFileName(PackageTag + value + "\r\n" + rest);
    CrLfLineKeepsReturn(value, rest);
    assert name[|value|] == '\r' && !NameChar(name[|value|]);
  }
}

=== FILE: controlfile.dfy ===
/**
 Derivation of the output file name from the text of `DEBIAN/control`:
 `Regex.Match(control, "(?<=^Package:\s*).*$", RegexOptions.Multiline).Value + ".deb"`.

 In multiline mode `^` holds at the start of the text and after every `\n`,
 `.` is any character but `\n`, and `$` holds before a `\n` or at the end.
 The lookbehind asks for a line that starts with `Package:` followed by a
 run of whitespace ending at the match position. The engine tries match
 positions from left to right, and `.*$` succeeds from every position, so
 the value is the rest of the line from the first position the lookbehind
 accepts. That position is right after the colon of the first `Package:`
 line: blanks after the colon and a `\r` before the line break stay in the
 value, and a text without such a line yields the empty value (the file is
 then called `.deb`).
 */
module ControlFile {
  import opened Text
  import opened FileTree

  const PackageTag: string := "Package:"
  const DebSuffix: string := ".deb"

  /** `^` in multiline mode. */
  predicate LineStart(s: string, q: int) {
    q == 0 || (0 < q <= |s| && s[q - 1] == '\n')
  }

  /** A line of `s` starts at `q` with `Package:`. */
  predicate PackageLineAt(s: string, q: int) {
    LineStart(s, q) && OccursAt(s, PackageTag, q)
  }

  /** `\s` in .NET: the Unicode white-space characters. */
  predicate RegexSpace(c: char) {
    c == ' ' || ('\t' <= c <= '\r') || c == '\U{85}' || c == '\U{A0}' || c == '\U{1680}' ||
    ('\U{2000}' <= c <= '\U{200A}') || c == '\U{2028}' || c == '\U{2029}' ||
    c == '\U{202F}' || c == '\U{205F}' || c == '\U{3000}'
  }

  /** The lookbehind `(?<=^Package:\s*)` holds at position `p`. */
  ghost predicate LookbehindAt(s: string, p: int) {
    exists q :: 0 <= q && q + |PackageTag| <= p <= |s| && PackageLineAt(s, q) &&
      forall k :: q + |PackageTag| <= k < p ==> RegexSpace(s[k])
  }

  /** The whole pattern matches at `p` (`.*$` always can, see above). */
  ghost predicate MatchesAt(s: string, p: int) {
    0 <= p <= |s| && LookbehindAt(s, p)
  }

  /** The earliest start of a `Package:` line at or after `from`. */
  function FindPackageLine(s: string, from: nat): (r: Option<nat>)
    decreases |s| - from
    ensures r.Some? ==> from <= r.value && PackageLineAt(s, r.value)
    ensures r.Some? ==> forall q :: from <= q < r.value ==> !PackageLineAt(s, q)
    ensures r.None? ==> forall q :: from <= q ==> !PackageLineAt(s, q)
  {
    if from + |PackageTag| > |s| then None
    else if PackageLineAt(s, from) then Some(from)
    else FindPackageLine(s, from + 1)
  }

  /** The end of the line that contains position `p`: the next `\n`, or the
      end of the text. This is where greedy `.*` stops and `$` holds. */
  function LineEnd(s: string, p: nat): (e: nat)
    requires p <= |s|
    decreases |s| - p
    ensures p <= e <= |s|
    ensures e == |s| || s[e] == '\n'
    ensures forall k :: p <= k < e ==> s[k] != '\n'
  {
    if p == |s| || s[p] == '\n' then p else LineEnd(s, p + 1)
  }

  /** The value of the regular-expression match. */
  function PackageValue(s: string): (v: string)
    ensures '\n' !in v
    ensures (forall q :: 0 <= q ==> !PackageLineAt(s, q)) ==> v == ""
  {
    match FindPackageLine(s, 0)
    case None => ""
    case Some(q) =>
      var p := q + |PackageTag|;
      var v := s[p..LineEnd(s, p)];
      assert forall k :: 0 <= k < |v| ==> v[k] == s[p + k];
      v
  }

  /** `DebFileName`, as `BuildControlTarball` sets it. */
  function DebFileName(control: string): string {
    PackageValue(control) + DebSuffix
  }

  /** The file name in terms of the control text alone: `.deb` when no line
      starts with `Package:`, and otherwise the rest of the first such line
      after the colon, blanks and all, followed by `.deb`. */
  lemma {:induction false} DebFileNameFromPackageLine(control: string, q: int)
    ensures (forall q' :: !PackageLineAt(control, q')) ==> DebFileName(control) == DebSuffix
    ensures PackageLineAt(control, q) && (forall q' :: 0 <= q' < q ==> !PackageLineAt(control, q')) ==>
      DebFileName(control) ==
        control[q + |PackageTag|..LineEnd(control, q + |PackageTag|)] + DebSuffix
  {
    match FindPackageLine(control, 0)
    case None =>
    case Some(q0) =>
      if PackageLineAt(control, q) && (forall q' :: 0 <= q' < q ==> !PackageLineAt(control, q')) {
        assert q0 <= q;
        assert q == q0;
      }
  }

  /** The scanner finds exactly what the regular expression finds: when the
      pattern matches nowhere the value is empty; otherwise the value is the
      rest of the line from the first position where it matches. */
  lemma {:induction false} PackageValueIsFirstMatch(s: string)
    ensures (forall p :: !MatchesAt(s, p)) ==> PackageValue(s) == ""
    ensures forall p :: MatchesAt(s, p) && (forall p' :: 0 <= p' < p ==> !MatchesAt(s, p')) ==>
      PackageValue(s) == s[p..LineEnd(s, p)]
  {
    match FindPackageLine(s, 0)
    case None =>
    case Some(q0) =>
      var p0 := q0 + |PackageTag|;
      assert MatchesAt(s, p0) by {
        assert PackageLineAt(s, q0);
      }
      forall p | MatchesAt(s, p) && (forall p' :: 0 <= p' < p ==> !MatchesAt(s, p'))
        ensures PackageValue(s) == s[p..LineEnd(s, p)]
      {
        var q :| 0 <= q && q + |PackageTag| <= p && PackageLineAt(s, q);
        assert q0 <= q;
        assert p == p0;
      }
  }

  /** A match exists exactly when some line starts with `Package:`. */
  lemma MatchExistsIffPackageLine(s: string)
    ensures (exists p :: MatchesAt(s, p)) <==> (exists q :: PackageLineAt(s, q))
  {
    if exists q :: PackageLineAt(s, q) {
      var q :| PackageLineAt(s, q);
      assert MatchesAt(s, q + |PackageTag|);
    }
  }

  /** A typical control file: the blank after the colon stays in the name. */
  lemma SampleControlName()
    ensures DebFileName("Package: sample\n") == " sample.deb"
  {
    var s := "Package: sample\n";
    assert PackageLineAt(s, 0) by { assert s[0..8] == PackageTag; }
    assert FindPackageLine(s, 0) == Some(0);
    assert LineEnd(s, 8) == 15;
  }

  /** A later `Package:` line with a Windows line break: the `\r` stays. */
  lemma CarriageReturnKept()
    ensures PackageValue("Name: x\nPackage:y\r\n") == "y\r"
  {
    var head, tail := "Name: x\n", "y\r\n";
    var s := head + PackageTag + tail;
    assert s == "Name: x\nPackage:y\r\n";
    assert !PackageLineAt(s, 0) by { assert s[0] == 'N' && PackageTag[0] == 'P'; }
    assert forall q :: 1 <= q < 8 ==> !LineStart(s, q);
    assert PackageLineAt(s, 8) by {
      assert s[7] == '\n';
      assert s[8..16] == PackageTag;
    }
    assert FindPackageLine(s, 1) == Some(8);
    assert FindPackageLine(s, 0) == Some(8);
    assert s[16] != '\n' && s[17] != '\n' && s[18] == '\n';
    assert LineEnd(s, 16) == 18;
    assert s[16..18] == "y\r";
  }

  /** A control text whose first line is a `Package:` line ending in a
      Windows line break: the `\r` stays in the value. */
  lemma {:induction false} CrLfLineKeepsReturn(value: string, rest: string)
    requires '\n' !in value
    ensures DebFileName(PackageTag + value + "\r\n" + rest) == value + "\r" + DebSuffix
  {
    var s := PackageTag + value + "\r\n" + rest;
    var p := |PackageTag|;
    assert s[..p] == PackageTag;
    assert PackageLineAt(s, 0);
    assert FindPackageLine(s, 0) == Some(0);
    var e := p + |value| + 1;
    assert s[e] == '\n';
    forall k | p <= k < e
      ensures s[k] != '\n'
    {
      if k < e - 1 {
        assert s[k] == value[k - p];
      }
    }
    assert LineEnd(s, p) == e;
    assert s[p..e] == value + "\r";
  }

  /** Without a `Package:` line the output file is called `.deb`. */
  lemma MissingPackageLine()
    ensures DebFileName("Version: 1.0\n") == ".deb"
  {
    var s := "Version: 1.0\n";
    forall q | 0 <= q
      ensures !PackageLineAt(s, q)
    {
      if q == 0 {
        assert s[0..8][0] != PackageTag[0];
      }
    }
  }
}

=== FILE: filetree.dfy ===
/**
 The filesystem as a value. The packager only ever enumerates directories,
 tests for existence and reads the control file, so a directory tree of
 named files and directories is all it needs. Children are kept in the
 order the operating system enumerates them; the model does not sort them.
 */
module FileTree {
  import opened Text

  datatype Node =
    | File(name: string, content: string)
    | Dir(name: string, children: seq<Node>)

  /** A directory the program names by a path: `fullName` is what
      DirectoryInfo.FullName resolves that path to. */
  datatype Folder = Folder(fullName: string, children: seq<Node>)

  /** The two directory-separator conventions `FullName` can follow. */
  datatype Platform = Windows | Unix

  function Separator(p: Platform): char {
    if p == Windows then '\\' else '/'
  }

  /** Failures the .NET file APIs raise as exceptions. */
  datatype FsError =
    | DirectoryNotFound(path: string)
    | FileNotFound(path: string)
    | AccessDenied(path: string)
    | InvalidName(path: string)  // a path Windows cannot name a file by

  datatype Result<T> = Ok(value: T) | Err(error: FsError)

  datatype Option<T> = None | Some(value: T)

  /** Full name of the entry `name` inside the directory whose full name is
      `parent` (Path.Combine): a separator is inserted unless `parent`
      already ends with one. */
  function Combine(parent: string, name: string, sep: char): (r: string)
    ensures StartsWith(r, parent) && EndsWith(r, name)
    ensures |parent| + |name| <= |r| <= |parent| + |name| + 1
    ensures forall c :: c in r ==> c in parent || c in name || c == sep
  {
    if |parent| > 0 && parent[|parent| - 1] == sep then parent + name
    else parent + [sep] + name
  }

  /** The characters Windows paths accept as separators. */
  predicate IsPathSeparator(c: char) {
    c == '\\' || c == '/'
  }

  /** Index of the last path separator of `path`, or -1. */
  function LastSeparator(path: string): (k: int)
    ensures -1 <= k < |path|
    ensures k >= 0 ==> IsPathSeparator(path[k])
    ensures forall j :: k < j < |path| ==> !IsPathSeparator(path[j])
  {
    if path == [] then -1
    else if IsPathSeparator(path[|path| - 1]) then |path| - 1
    else LastSeparator(path[..|path| - 1])
  }

  /** Number of filesystem nodes in a subtree, the node itself included. */
  function Count(n: Node): nat {
    match n
    case File(_, _) => 1
    case Dir(_, cs) => 1 + CountAll(cs)
  }

  function CountAll(ns: seq<Node>): nat {
    if ns == [] then 0 else Count(ns[0]) + CountAll(ns[1..])
  }

  /** The first entry of a directory listing with the given name, as a
      path lookup finds it. */
  function Find(ns: seq<Node>, name: string): (r: Option<Node>)
    ensures r.Some? ==> r.value in ns && r.value.name == name
    ensures r.None? <==> forall k :: 0 <= k < |ns| ==> ns[k].name != name
  {
    if ns == [] then None
    else if ns[0].name == name then Some(ns[0])
    else Find(ns[1..], name)
  }

  /** No name anywhere in the subtree contains the character `c`. */
  predicate NamesAvoid(n: Node, c: char) {
    c !in n.name &&
    (n.Dir? ==> forall k :: 0 <= k < |n.children| ==> NamesAvoid(n.children[k], c))
  }
}

=== FILE: program.dfy ===
/**
 The command-line front end (`Program`): `Main`'s argument dispatch, the
 build and extraction pipelines it starts, and the structure check that
 guards a Debian build.

 A run is a value: the steps the program takes in order and how it ends.
 `ExitWithMessage` prints a line and ends the process, so in the model it
 is a terminal `Run`. Collaborators whose code is not part of this model
 (the ar writer `BuildDebPackage`, the rpm build, line-ending conversion,
 the extractor) appear as single steps. The filesystem is an `Env` value;
 `Extractor.IsDebianBinary` is the set `debianBinaries`.
 */
module Program {
  import opened Text
  import opened FileTree
  import opened TarPolicy
  import opened ControlFile
  import opened Builder

  const CreateDebianPackage: string := "-b"
  const CreateRpmPackage: string := "-r"
  const ConvertDos2Unix: string := "-d2u"
  const ExtractDebianPackage: string := "-x"
  const ThemeDeb: string := "--theme"
  const HelpText: string := "-h"

  const DirFailureMessage: string := "E: Directory was not found! Aborting..."
  const ArgcFailureMessage: string := "E: Mismatch in arguments! (perhaps missing one or one too much?) Aborting..."
  const DebFailureMessage: string := "E: File is not a Debian Binary! Aborting..."
  const StructFailureMessage: string :=
    "E: Directory does NOT match a standard structure! (Perhaps missing control?) Aborting..."

  const ExitNoArguments: int := -1
  const ExitArgsMismatch: int := 100
  const ExitDirError: int := 200
  const ExitDebFileError: int := 300
  const ExitStructError: int := 400

  /** The separators `-d2u` splits its file list on. */
  const ListSeparators: set<char> := {';', ','}

  /** The world `Main` sees on a Windows host. `files` and `dirs` answer
      File.Exists and Directory.Exists for a path string as given; `dirs`
      also holds each existing directory's contents. The two are independent
      inputs: nothing ties a path in `files` to a file node of some tree. */
  datatype Env = Env(
    localDir: string,
    files: set<string>,
    dirs: map<string, Folder>,
    debianBinaries: set<string>)

  /** File.Exists and Directory.Exists are false for the empty path. */
  predicate FileExists(env: Env, path: string) {
    path != "" && path in env.files
  }

  predicate DirectoryExists(env: Env, path: string) {
    path != "" && path in env.dirs
  }

  datatype Step =
    | ShowHelp                                              // InfoMessage()
    | PrintMessage(text: string)                            // the line ExitWithMessage prints
    | ConvertToUnix(files: seq<string>)                     // Builder.Dos2Unix
    | WriteControlTarball(dir: string, control: ControlTarball)
    | WriteDataTarball(dir: string, data: Tarball)
    | AssembleDeb(dir: string)                              // Builder.BuildDebPackage
    | AssembleRpm(dir: string)                              // Builder.BuildRPMPackage
    | NameExtraction(path: string)                          // Extractor.DebName from the file name
    | OpenRead(path: string)                                // Builder.CreateStream
    | ExtractAll(source: string, target: string)            // Extractor.ExtractEverything
    | CreateDirectory(path: string)
    | WriteControlTemplate(path: string)                    // GenerateControlFile

  /** How a run ends: `Main` returns, the process exits with a code, or a
      .NET exception escapes. */
  datatype Termination = Returned | Exited(code: int) | Crashed(error: FsError)

  datatype Run = Run(steps: seq<Step>, end: Termination)

  function Continue(steps: seq<Step>): Run {
    Run(steps, Returned)
  }

  function ExitWithMessage(message: string, code: int): Run {
    Run([PrintMessage(message)], Exited(code))
  }

  /** Sequential composition: `next` runs only when `first` returned. */
  function Then(first: Run, next: Run): Run {
    if first.end == Returned then Run(first.steps + next.steps, next.end) else first
  }

  /** `ExitWithMessage` ends the process: nothing placed after it runs, and
      the message is the last thing the run does. */
  lemma ExitWithMessageIsTerminal(message: string, code: int, next: Run)
    ensures Then(ExitWithMessage(message, code), next).end == Exited(code)
    ensures Then(ExitWithMessage(message, code), next).steps == [PrintMessage(message)]
  {
  }

  // ---------------------------------------------------------------------
  // Splitting the `-d2u` file list (`String.Split(';', ',')`)

  /** The separator characters of `s`, in order. */
  function SeparatorsIn(s: string, seps: set<char>): (r: string)
    ensures forall c :: c in r ==> c in seps
  {
    if s == [] then []
    else (if s[0] in seps then [s[0]] else []) + SeparatorsIn(s[1..], seps)
  }

  /** Splits at every separator; empty pieces are kept. */
  function Split(s: string, seps: set<char>): (parts: seq<string>)
    ensures |parts| == |SeparatorsIn(s, seps)| + 1
    ensures forall k :: 0 <= k < |parts| ==> forall c :: c in parts[k] ==> c !in seps
  {
    if s == [] then [""]
    else
      var rest := Split(s[1..], seps);
      if s[0] in seps then [""] + rest
      else [[s[0]] + rest[0]] + rest[1..]
  }

  /** Puts the pieces back together with the given separators between them. */
  function Interleave(parts: seq<string>, seps: string): string
    requires |parts| == |seps| + 1
  {
    if seps == [] then parts[0]
    else parts[0] + [seps[0]] + Interleave(parts[1..], seps[1..])
  }

  /** Splitting loses nothing: the pieces and the separators rebuild the list. */
  lemma {:induction false} SplitRoundTrip(s: string, seps: set<char>)
    ensures Interleave(Split(s, seps), SeparatorsIn(s, seps)) == s
  {
    if s != [] {
      SplitRoundTrip(s[1..], seps);
      var rest := Split(s[1..], seps);
      var rs := SeparatorsIn(s[1..], seps);
      if s[0] in seps {
        assert Split(s, seps)[1..] == rest;
        assert s == [s[0]] + s[1..];
      } else {
        var parts := Split(s, seps);
        assert SeparatorsIn(s, seps) == rs;
        if rs == [] {
          assert s == [s[0]] + s[1..];
        } else {
          assert parts[1..] == rest[1..];
          assert Interleave(rest, rs) == rest[0] + [rs[0]] + Interleave(rest[1..], rs[1..]);
          assert s == [s[0]] + s[1..];
        }
      }
    }
  }

  // ---------------------------------------------------------------------
  // Paths

  /** `Path.GetDirectoryName` for a path holding a separator: the part before
      the last separator, which is kept when that part is empty or a drive. */
  function DirectoryName(path: string): (r: string)
    requires '\\' in path
    ensures r != [] && StartsWith(path, r)
    ensures forall j :: |r| < j < |path| ==> !IsPathSeparator(path[j])
  {
    var k := LastSeparator(path);
    assert k >= 0 by {
      var i :| 0 <= i < |path| && path[i] == '\\';
    }
    if k == 0 || path[k - 1] == ':' then path[..k + 1] else path[..k]
  }

  // ---------------------------------------------------------------------
  // Structure check and pipelines

  predicate HasSubdirectory(ns: seq<Node>) {
    exists k :: 0 <= k < |ns| && ns[k].Dir?
  }

  /** What `VerifyStructure` accepts: some subdirectory (`DEBIAN` itself
      counts) and a file `DEBIAN\control`. */
  predicate StructureOk(ns: seq<Node>) {
    HasSubdirectory(ns) && HasControlFile(ns)
  }

  /** `VerifyStructure(directory)`; listing a missing directory throws. */
  function VerifyStructure(directory: string, env: Env): (r: Run)
    ensures r.end == Returned <==> DirectoryExists(env, directory) && StructureOk(env.dirs[directory].children)
    ensures r.end == Returned ==> r.steps == []
    ensures DirectoryExists(env, directory) && r.end != Returned ==>
      r == ExitWithMessage(StructFailureMessage, ExitStructError)
  {
    if !DirectoryExists(env, directory) then
      Run([], Crashed(DirectoryNotFound(directory)))
    else if StructureOk(env.dirs[directory].children) then
      Continue([])
    else
      ExitWithMessage(StructFailureMessage, ExitStructError)
  }

  /** A structure that passes the check always has a readable control file,
      so the control tarball of a checked directory fails only when
      `control.tar` cannot be created, because a directory has that name. */
  lemma StructureOkGivesControlTarball(directory: string, folder: Folder)
    requires StructureOk(folder.children)
    ensures BuildControlTarball(directory, folder).Ok? <==> TarballCreatable(folder.children, ControlTarName)
    ensures BuildControlTarball(directory, folder).Err? ==>
      BuildControlTarball(directory, folder).error == AccessDenied(StreamPath(directory, 0))
  {
  }

  /** Both temporary tarballs can be created in the staging directory. */
  predicate TarballsCreatable(ns: seq<Node>) {
    TarballCreatable(ns, ControlTarName) && TarballCreatable(ns, DataTarName)
  }

  /** `BuilderDebType(dir)`: check the structure, then the control tarball,
      the data tarball and the package, in that order. Full names use the
      Windows separator. */
  function BuilderDebType(dir: string, env: Env): (r: Run)
    ensures r.end == Returned ==> DirectoryExists(env, dir) && StructureOk(env.dirs[dir].children)
    ensures r.end.Exited? ==> r == ExitWithMessage(StructFailureMessage, ExitStructError)
  {
    var verified := VerifyStructure(dir, env);
    if verified.end != Returned || !DirectoryExists(env, dir) then
      verified
    else
      var folder := env.dirs[dir];
      match BuildControlTarball(dir, folder)
      case Err(e) => Run([], Crashed(e))
      case Ok(control) =>
        match BuildDataTarball(dir, folder, Backslash)
        case Err(e) => Run([WriteControlTarball(dir, control)], Crashed(e))
        case Ok(data) =>
          Continue([WriteControlTarball(dir, control), WriteDataTarball(dir, data), AssembleDeb(dir)])
  }

  /** A Debian build returns exactly when the structure check passes and
      both temporary tarballs can be created; it has then written both
      tarballs and assembled the package, in that order. A directory named
      `control.tar` throws before anything is written; one named `data.tar`
      throws after the control tarball is written. A failed check only
      prints a message (or throws for a missing directory). */
  lemma BuilderDebTypeOutcome(dir: string, env: Env)
    ensures var r := BuilderDebType(dir, env);
      r.end == Returned <==>
        DirectoryExists(env, dir) && StructureOk(env.dirs[dir].children) && TarballsCreatable(env.dirs[dir].children)
    ensures var r := BuilderDebType(dir, env);
      r.end == Returned ==>
        && |r.steps| == 3
        && r.steps[0].WriteControlTarball? && r.steps[0].dir == dir
        && r.steps[1].WriteDataTarball? && r.steps[1].dir == dir
        && r.steps[2] == AssembleDeb(dir)
    ensures var r := BuilderDebType(dir, env);
      DirectoryExists(env, dir) && StructureOk(env.dirs[dir].children) &&
      !TarballCreatable(env.dirs[dir].children, ControlTarName) ==>
        r == Run([], Crashed(AccessDenied(StreamPath(dir, 0))))
    ensures var r := BuilderDebType(dir, env);
      DirectoryExists(env, dir) && StructureOk(env.dirs[dir].children) &&
      TarballCreatable(env.dirs[dir].children, ControlTarName) &&
      !TarballCreatable(env.dirs[dir].children, DataTarName) ==>
        && |r.steps| == 1 && r.steps[0].WriteControlTarball? && r.steps[0].dir == dir
        && r.end == Crashed(AccessDenied(StreamPath(dir, 1)))
    ensures var r := BuilderDebType(dir, env);
      !(DirectoryExists(env, dir) && StructureOk(env.dirs[dir].children)) ==>
        forall k :: 0 <= k < |r.steps| ==> r.steps[k].PrintMessage?
  {
    var r := BuilderDebType(dir, env);
    var verified := VerifyStructure(dir, env);
    if DirectoryExists(env, dir) && StructureOk(env.dirs[dir].children) {
      var folder := env.dirs[dir];
      StructureOkGivesControlTarball(dir, folder);
      if TarballCreatable(folder.children, ControlTarName) {
        var control := BuildControlTarball(dir, folder).value;
        if TarballCreatable(folder.children, DataTarName) {
          var data := BuildDataTarball(dir, folder, Backslash).value;
          assert r == Continue([WriteControlTarball(dir, control), WriteDataTarball(dir, data), AssembleDeb(dir)]);
        } else {
          assert r == Run([WriteControlTarball(dir, control)], Crashed(AccessDenied(StreamPath(dir, 1))));
        }
      }
    } else {
      assert r == verified;
    }
  }

  /** `BuilderRPMType(dir)`. */
  function BuilderRpmType(dir: string): Run {
    Continue([AssembleRpm(dir)])
  }

  /** `ExtractorType(passedFilePath, fileName, targetDirectory)`, with the
      empty string for a null argument. */
  function ExtractorType(passed: string, fileName: string, target: string, env: Env): (r: Run)
    ensures passed !in env.debianBinaries ==> r == ExitWithMessage(DebFailureMessage, ExitDebFileError)
    ensures forall k :: 0 <= k < |r.steps| && r.steps[k].OpenRead? ==>
      passed in env.debianBinaries && k > 0 && r.steps[k - 1] == NameExtraction(passed)
    ensures !r.end.Crashed?
    ensures r.end.Exited? ==> r.end.code == ExitDebFileError || r.end.code == ExitFileError
  {
    if passed !in env.debianBinaries then
      ExitWithMessage(DebFailureMessage, ExitDebFileError)
    else
      var source := if target == "" then LocalFilePath(env.localDir, fileName) else StreamPath(passed, 3);
      var destination := if target == "" then env.localDir else target;
      Then(Continue([NameExtraction(passed)]),
        if !FileExists(env, source) then ExitWithMessage(FileFailureMessage, ExitFileError)
        else Continue([OpenRead(source), ExtractAll(source, destination)]))
  }

  /** The `-x` branch of `Main`. It never throws, and it exits only for a
      wrong argument or a missing file (100), a missing or foreign package
      (300), or a stream that cannot be opened (500). */
  function ExtractCommand(args: seq<string>, env: Env): (r: Run)
    ensures !r.end.Crashed?
    ensures r.end.Exited? ==> r.end.code in {ExitArgsMismatch, ExitDebFileError, ExitFileError}
  {
    if |args| == 3 then
      // Environment.GetCommandLineArgs()[2] and [3] are args[1] and args[2]
      if FileExists(env, args[1]) && DirectoryExists(env, args[2]) then
        ExtractorType(args[1], "", args[2], env)
      else
        ExitWithMessage(ArgcFailureMessage, ExitArgsMismatch)
    else if |args| == 2 then
      if '\\' in args[1] then
        if FileExists(env, args[1]) then
          ExtractorType(args[1], "", DirectoryName(args[1]), env)
        else
          ExitWithMessage(ArgcFailureMessage, ExitArgsMismatch)
      else
        var local := LocalFilePath(env.localDir, args[1]);
        if FileExists(env, local) then
          ExtractorType(local, args[1], "", env)
        else
          ExitWithMessage(FileFailureMessage, ExitDebFileError)
    else
      Continue([])
  }

  /** The `--theme` branch of `Main`. With a wrong argument count it exits
      with 100 before anything is created; otherwise every path it passes to
      `CreateDirectory` starts with the string
      `<local>\Library\Themes\<name>.theme` (`..` in the name is not
      resolved). */
  function ThemeCommand(args: seq<string>, env: Env): (r: Run)
    ensures r.end.Exited? <==> |args| != 2
    ensures r.end.Exited? ==> r == ExitWithMessage(ArgcFailureMessage, ExitArgsMismatch)
    ensures forall k :: 0 <= k < |r.steps| && r.steps[k].CreateDirectory? ==>
      |args| == 2 && StartsWith(r.steps[k].path, env.localDir + "\\Library\\Themes\\" + args[1] + ".theme")
  {
    if |args| != 2 then
      ExitWithMessage(ArgcFailureMessage, ExitArgsMismatch)
    else
      var target := env.localDir + "\\Library\\Themes\\" + args[1] + ".theme";
      StartsWithAppend(target, "\\IconBundles", target);
      StartsWithAppend(target, "\\Bundles\\com.apple.springboard", target);
      Continue([
        CreateDirectory(target),
        CreateDirectory(target + "\\IconBundles"),
        CreateDirectory(target + "\\Bundles\\com.apple.springboard"),
        WriteControlTemplate(env.localDir + "\\control")])
  }

  /** `Main(args)`. Exit code -1 is reserved for a call without arguments,
      and among the modelled failures only a Debian build can let an
      exception escape. */
  function Dispatch(args: seq<string>, env: Env): (r: Run)
    ensures r.end == Exited(ExitNoArguments) <==> |args| == 0
    ensures r.end.Crashed? ==> |args| > 0 && args[0] == CreateDebianPackage
  {
    if |args| == 0 then
      Run([ShowHelp], Exited(ExitNoArguments))
    else if args[0] == ConvertDos2Unix then
      if |args| == 2 then Continue([ConvertToUnix(Split(args[1], ListSeparators))])
      else ExitWithMessage(ArgcFailureMessage, ExitArgsMismatch)
    else if args[0] == CreateRpmPackage then
      if |args| == 2 then
        if DirectoryExists(env, args[1]) then BuilderRpmType(args[1])
        else ExitWithMessage(DirFailureMessage, ExitDirError)
      else
        BuilderRpmType(env.localDir)
    else if args[0] == CreateDebianPackage then
      if |args| == 2 then
        if DirectoryExists(env, args[1]) then BuilderDebType(args[1], env)
        else ExitWithMessage(DirFailureMessage, ExitDirError)
      else
        BuilderDebType(env.localDir, env)
    else if args[0] == ExtractDebianPackage then
      ExtractCommand(args, env)
    else if args[0] == ThemeDeb then
      ThemeCommand(args, env)
    else
      Continue([ShowHelp])
  }
}

=== FILE: programfacts.dfy ===
/**
 Properties of `Main`'s dispatch over all argument lists and environments:
 which arguments lead to which pipeline or exit code, and the ordering
 guarantees of the build and extraction pipelines.
 */
module ProgramFacts {
  import opened Text
  import opened FileTree
  import opened TarPolicy
  import opened ControlFile
  import opened Builder
  import opened Program

  /** The pipeline `-b` or `-r` starts in `dir`. */
  function BuildIn(flag: string, dir: string, env: Env): Run {
    if flag == CreateDebianPackage then BuilderDebType(dir, env) else BuilderRpmType(dir)
  }

  /** With no arguments the help text is shown and the process exits with -1. */
  lemma NoArgumentsShowsHelp(env: Env)
    ensures Dispatch([], env).steps == [ShowHelp]
    ensures Dispatch([], env).end == Exited(-1)
  {
  }

  /** `-b` and `-r` build in the named directory when exactly one exists,
      exit with 200 when it does not, and build in the local directory for
      any other argument count. */
  lemma BuildDispatch(args: seq<string>, env: Env)
    requires |args| > 0 && (args[0] == CreateDebianPackage || args[0] == CreateRpmPackage)
    ensures |args| == 2 && DirectoryExists(env, args[1]) ==>
      Dispatch(args, env) == BuildIn(args[0], args[1], env)
    ensures |args| == 2 && !DirectoryExists(env, args[1]) ==>
      Dispatch(args, env).steps == [PrintMessage(DirFailureMessage)] &&
      Dispatch(args, env).end == Exited(200)
    ensures |args| != 2 ==> Dispatch(args, env) == BuildIn(args[0], env.localDir, env)
  {
  }

  /** `-r` runs no structure check: unlike `-b` it never exits with 400 and
      takes no step of a Debian build; when it builds, its one step
      assembles the rpm package in the chosen directory. */
  lemma RpmBuildUnchecked(args: seq<string>, env: Env)
    requires |args| > 0 && args[0] == CreateRpmPackage
    ensures Dispatch(args, env).end != Exited(400)
    ensures NoDebSteps(Dispatch(args, env))
    ensures Dispatch(args, env).end == Returned ==>
      Dispatch(args, env).steps == [AssembleRpm(if |args| == 2 then args[1] else env.localDir)]
  {
    BuildDispatch(args, env);
  }

  /** `-x` with a package file and a target directory. */
  lemma ExtractWithTarget(args: seq<string>, env: Env)
    requires |args| == 3 && args[0] == ExtractDebianPackage
    ensures !(FileExists(env, args[1]) && DirectoryExists(env, args[2])) ==>
      Dispatch(args, env).steps == [PrintMessage(ArgcFailureMessage)] &&
      Dispatch(args, env).end == Exited(100)
    ensures FileExists(env, args[1]) && DirectoryExists(env, args[2]) && args[1] in env.debianBinaries ==>
      Dispatch(args, env).end == Returned &&
      Dispatch(args, env).steps ==
        [NameExtraction(args[1]), OpenRead(args[1]), ExtractAll(args[1], args[2])]
  {
  }

  /** `-x` with a path: the package is extracted next to itself. */
  lemma ExtractBesideFile(args: seq<string>, env: Env)
    requires |args| == 2 && args[0] == ExtractDebianPackage && '\\' in args[1]
    ensures !FileExists(env, args[1]) ==>
      Dispatch(args, env).steps == [PrintMessage(ArgcFailureMessage)] &&
      Dispatch(args, env).end == Exited(100)
    ensures FileExists(env, args[1]) && args[1] in env.debianBinaries ==>
      Dispatch(args, env).end == Returned &&
      Dispatch(args, env).steps ==
        [NameExtraction(args[1]), OpenRead(args[1]), ExtractAll(args[1], DirectoryName(args[1]))]
  {
    var dir := DirectoryName(args[1]);
    assert dir != "";
  }

  /** `-x` with a bare file name: the package is looked up in, and extracted
      into, the local directory. */
  lemma ExtractInLocalDirectory(args: seq<string>, env: Env)
    requires |args| == 2 && args[0] == ExtractDebianPackage && '\\' !in args[1]
    ensures var local := env.localDir + "\\" + args[1];
      !FileExists(env, local) ==>
        Dispatch(args, env).steps == [PrintMessage(FileFailureMessage)] &&
        Dispatch(args, env).end == Exited(300)
    ensures var local := env.localDir + "\\" + args[1];
      FileExists(env, local) && local in env.debianBinaries ==>
        Dispatch(args, env).end == Returned &&
        Dispatch(args, env).steps == [NameExtraction(local), OpenRead(local), ExtractAll(local, env.localDir)]
  {
  }

  /** `-x` with any other argument count does nothing. */
  lemma ExtractOtherCounts(args: seq<string>, env: Env)
    requires |args| > 0 && args[0] == ExtractDebianPackage && |args| != 2 && |args| != 3
    ensures Dispatch(args, env).steps == [] && Dispatch(args, env).end == Returned
  {
  }

  /** `-h` and every unknown first argument only show the help text. */
  lemma HelpOnly(args: seq<string>, env: Env)
    requires |args| > 0
    requires args[0] !in {ConvertDos2Unix, CreateRpmPackage, CreateDebianPackage, ExtractDebianPackage, ThemeDeb}
    ensures Dispatch(args, env).steps == [ShowHelp] && Dispatch(args, env).end == Returned
  {
  }

  /** `--theme` with the wrong argument count exits with 100 before any
      directory is created. */
  lemma ThemeNeedsOneName(args: seq<string>, env: Env)
    requires |args| > 0 && args[0] == ThemeDeb && |args| != 2
    ensures Dispatch(args, env).end == Exited(100)
    ensures forall k :: 0 <= k < |Dispatch(args, env).steps| ==>
      !Dispatch(args, env).steps[k].CreateDirectory? && !Dispatch(args, env).steps[k].WriteControlTemplate?
  {
  }

  /** `-d2u` hands over the pieces of its list, which rebuild the list. */
  lemma Dos2UnixList(args: seq<string>, env: Env)
    requires |args| == 2 && args[0] == ConvertDos2Unix
    ensures Dispatch(args, env).end == Returned && |Dispatch(args, env).steps| == 1
    ensures Dispatch(args, env).steps[0].ConvertToUnix?
    ensures Interleave(Dispatch(args, env).steps[0].files, SeparatorsIn(args[1], ListSeparators)) == args[1]
  {
    SplitRoundTrip(args[1], ListSeparators);
  }

  /** The tarballs are written only for a directory whose structure passed
      the check, control before data before the package. */
  ghost predicate BuildValidatedAndOrdered(r: Run, env: Env) {
    && (forall k :: 0 <= k < |r.steps| && r.steps[k].WriteControlTarball? ==>
          DirectoryExists(env, r.steps[k].dir) && StructureOk(env.dirs[r.steps[k].dir].children))
    && (forall k :: 0 <= k < |r.steps| && r.steps[k].WriteDataTarball? ==>
          0 < k && r.steps[k - 1].WriteControlTarball? && r.steps[k - 1].dir == r.steps[k].dir)
    && (forall k :: 0 <= k < |r.steps| && r.steps[k].AssembleDeb? ==>
          0 < k && r.steps[k - 1].WriteDataTarball? && r.steps[k - 1].dir == r.steps[k].dir)
  }

  /** No tarball step in the run. */
  ghost predicate NoTarballs(r: Run) {
    forall k :: 0 <= k < |r.steps| ==> !r.steps[k].WriteControlTarball? && !r.steps[k].WriteDataTarball?
  }

  /** The run takes no step of a Debian build. */
  ghost predicate NoDebSteps(r: Run) {
    forall k :: 0 <= k < |r.steps| ==>
      !r.steps[k].WriteControlTarball? && !r.steps[k].WriteDataTarball? && !r.steps[k].AssembleDeb?
  }

  /** The run opens and extracts nothing. */
  ghost predicate NoExtractSteps(r: Run) {
    forall k :: 0 <= k < |r.steps| ==> !r.steps[k].OpenRead? && !r.steps[k].ExtractAll?
  }

  /** A run of messages only builds and extracts nothing. */
  lemma MessagesOnly(r: Run, env: Env)
    requires forall k :: 0 <= k < |r.steps| ==> r.steps[k].PrintMessage?
    ensures BuildValidatedAndOrdered(r, env) && NoTarballs(r) && NoExtractSteps(r)
  {
  }

  /** The three steps of a successful build, after a passed check. */
  lemma BuildStepsOrdered(r: Run, env: Env, dir: string)
    requires DirectoryExists(env, dir) && StructureOk(env.dirs[dir].children)
    requires |r.steps| == 3
    requires r.steps[0].WriteControlTarball? && r.steps[0].dir == dir
    requires r.steps[1].WriteDataTarball? && r.steps[1].dir == dir
    requires r.steps[2] == AssembleDeb(dir)
    ensures BuildValidatedAndOrdered(r, env) && NoExtractSteps(r)
  {
    forall k | 0 <= k < 3
      ensures r.steps[k].WriteControlTarball? ==> k == 0
      ensures r.steps[k].WriteDataTarball? ==> k == 1
      ensures r.steps[k].AssembleDeb? ==> k == 2
    {
    }
  }

  /** A build cut short after the control tarball, for a checked directory. */
  lemma ControlStepOrdered(r: Run, env: Env, dir: string)
    requires DirectoryExists(env, dir) && StructureOk(env.dirs[dir].children)
    requires |r.steps| == 1 && r.steps[0].WriteControlTarball? && r.steps[0].dir == dir
    ensures BuildValidatedAndOrdered(r, env) && NoExtractSteps(r)
  {
  }

  lemma BuilderDebTypeValidated(dir: string, env: Env)
    ensures BuildValidatedAndOrdered(BuilderDebType(dir, env), env)
    ensures BuilderDebType(dir, env).end == Exited(400) ==> NoTarballs(BuilderDebType(dir, env))
    ensures NoExtractSteps(BuilderDebType(dir, env))
  {
    var r := BuilderDebType(dir, env);
    BuilderDebTypeOutcome(dir, env);
    if r.end == Returned {
      BuildStepsOrdered(r, env, dir);
    } else if DirectoryExists(env, dir) && StructureOk(env.dirs[dir].children) &&
              TarballCreatable(env.dirs[dir].children, ControlTarName) {
      ControlStepOrdered(r, env, dir);
    } else {
      MessagesOnly(r, env);
    }
  }

  /** Every other command takes no step of a Debian build. */
  lemma OtherCommandsBuildNothing(args: seq<string>, env: Env)
    requires !(|args| > 0 && args[0] == CreateDebianPackage && (|args| != 2 || DirectoryExists(env, args[1])))
    ensures NoDebSteps(Dispatch(args, env))
  {
    var r := Dispatch(args, env);
    if |args| > 0 && args[0] == ExtractDebianPackage {
      assert r == ExtractCommand(args, env);
      ExtractCommandBuildsNothing(args, env);
    } else if |args| > 0 && args[0] == ThemeDeb {
      assert r == ThemeCommand(args, env);
    }
  }

  lemma ExtractorTypeBuildsNothing(passed: string, fileName: string, target: string, env: Env)
    ensures NoDebSteps(ExtractorType(passed, fileName, target, env))
  {
  }

  lemma ExtractCommandBuildsNothing(args: seq<string>, env: Env)
    requires |args| > 0
    ensures NoDebSteps(ExtractCommand(args, env))
  {
    if |args| == 3 {
      ExtractorTypeBuildsNothing(args[1], "", args[2], env);
    } else if |args| == 2 {
      if '\\' in args[1] {
        ExtractorTypeBuildsNothing(args[1], "", DirectoryName(args[1]), env);
      } else {
        ExtractorTypeBuildsNothing(LocalFilePath(env.localDir, args[1]), args[1], "", env);
      }
    }
  }

  /** Every Debian build checks the structure first; a failed check exits
      with 400 before any tarball is created. */
  lemma DebBuildValidatesFirst(args: seq<string>, env: Env)
    ensures BuildValidatedAndOrdered(Dispatch(args, env), env)
    ensures Dispatch(args, env).end == Exited(400) ==> NoTarballs(Dispatch(args, env))
  {
    var r := Dispatch(args, env);
    if |args| > 0 && args[0] == CreateDebianPackage && (|args| != 2 || DirectoryExists(env, args[1])) {
      var dir := if |args| == 2 then args[1] else env.localDir;
      assert r == BuilderDebType(dir, env);
      BuilderDebTypeValidated(dir, env);
    } else {
      OtherCommandsBuildNothing(args, env);
    }
  }

  /** A package is opened only after it was found to be a Debian binary,
      and extracted only from the stream just opened. */
  ghost predicate ExtractionChecked(r: Run, env: Env) {
    && (forall k :: 0 <= k < |r.steps| && r.steps[k].OpenRead? ==>
          r.steps[k].path in env.debianBinaries && FileExists(env, r.steps[k].path))
    && (forall k :: 0 <= k < |r.steps| && r.steps[k].ExtractAll? ==>
          0 < k && r.steps[k - 1] == OpenRead(r.steps[k].source))
  }

  /** `ExtractorType` reads the file it checked: the path it was passed, or
      the same file named relative to the local directory. */
  lemma ExtractorTypeChecked(passed: string, fileName: string, target: string, env: Env)
    requires target != "" || LocalFilePath(env.localDir, fileName) == passed
    ensures ExtractionChecked(ExtractorType(passed, fileName, target, env), env)
  {
  }

  lemma ExtractCommandChecked(args: seq<string>, env: Env)
    requires |args| > 0
    ensures ExtractionChecked(ExtractCommand(args, env), env)
  {
    if |args| == 3 {
      if FileExists(env, args[1]) && DirectoryExists(env, args[2]) {
        ExtractorTypeChecked(args[1], "", args[2], env);
      }
    } else if |args| == 2 {
      if '\\' in args[1] {
        ExtractorTypeChecked(args[1], "", DirectoryName(args[1]), env);
      } else {
        ExtractorTypeChecked(LocalFilePath(env.localDir, args[1]), args[1], "", env);
      }
    }
  }

  lemma ExtractionChecksFirst(args: seq<string>, env: Env)
    ensures ExtractionChecked(Dispatch(args, env), env)
  {
    var r := Dispatch(args, env);
    if |args| > 0 && args[0] == ExtractDebianPackage {
      assert r == ExtractCommand(args, env);
      ExtractCommandChecked(args, env);
    } else if |args| > 0 && args[0] == CreateDebianPackage {
      if |args| != 2 || DirectoryExists(env, args[1]) {
        var dir := if |args| == 2 then args[1] else env.localDir;
        assert r == BuilderDebType(dir, env);
        BuilderDebTypeValidated(dir, env);
      }
    } else if |args| > 0 && args[0] == ThemeDeb {
      assert r == ThemeCommand(args, env);
    } else if |args| > 0 && args[0] == CreateRpmPackage {
      RpmBuildUnchecked(args, env);
    }
  }

  /** A file that is not a Debian binary ends `-x` with 300 before any
      stream is opened. */
  lemma NonDebianRejected(args: seq<string>, env: Env)
    requires |args| > 0 && args[0] == ExtractDebianPackage
    requires forall k :: 0 <= k < |args| ==> args[k] !in env.debianBinaries
    requires forall k :: 0 <= k < |args| ==> env.localDir + "\\" + args[k] !in env.debianBinaries
    ensures forall k :: 0 <= k < |Dispatch(args, env).steps| ==> !Dispatch(args, env).steps[k].OpenRead?
    ensures Dispatch(args, env).end == Returned ==> Dispatch(args, env).steps == []
  {
  }

  /** The exit codes `Main` uses, and a message or the help text before each. */
  predicate ProperExit(r: Run) {
    r.end.Exited? ==>
      && r.end.code in {-1, 100, 200, 300, 400, 500}
      && |r.steps| > 0
      && (r.steps[|r.steps| - 1].PrintMessage? || r.steps[|r.steps| - 1] == ShowHelp)
  }

  lemma ExtractorTypeExits(passed: string, fileName: string, target: string, env: Env)
    ensures ProperExit(ExtractorType(passed, fileName, target, env))
  {
    var r := ExtractorType(passed, fileName, target, env);
    if passed in env.debianBinaries {
      var source := if target == "" then LocalFilePath(env.localDir, fileName) else StreamPath(passed, 3);
      if !FileExists(env, source) {
        assert r == Run([NameExtraction(passed), PrintMessage(FileFailureMessage)], Exited(ExitFileError));
      }
    }
  }

  lemma ExtractCommandExits(args: seq<string>, env: Env)
    requires |args| > 0
    ensures ProperExit(ExtractCommand(args, env))
  {
    if |args| == 3 {
      ExtractorTypeExits(args[1], "", args[2], env);
    } else if |args| == 2 && '\\' in args[1] {
      ExtractorTypeExits(args[1], "", DirectoryName(args[1]), env);
    } else if |args| == 2 {
      ExtractorTypeExits(LocalFilePath(env.localDir, args[1]), args[1], "", env);
    }
  }

  lemma BuilderDebTypeExits(dir: string, env: Env)
    ensures ProperExit(BuilderDebType(dir, env))
  {
    var verified := VerifyStructure(dir, env);
    if DirectoryExists(env, dir) && !StructureOk(env.dirs[dir].children) {
      assert BuilderDebType(dir, env) == verified;
    }
  }

  /** The only exit codes are -1, 100, 200, 300, 400 and 500, and an exit
      always comes right after the message (or help) it shows. */
  lemma ExitCodes(args: seq<string>, env: Env)
    ensures ProperExit(Dispatch(args, env))
  {
    if |args| == 0 || args[0] == ConvertDos2Unix || args[0] == CreateRpmPackage {
    } else if args[0] == CreateDebianPackage {
      BuilderDebTypeExits(if |args| == 2 then args[1] else env.localDir, env);
    } else if args[0] == ExtractDebianPackage {
      ExtractCommandExits(args, env);
    }
  }

  /** A Debian build throws exactly when its directory cannot be listed,
      or when it passed the check but a directory has the name of a
      temporary tarball, which `File.Create` then refuses. */
  lemma BuilderDebTypeCrash(dir: string, env: Env)
    ensures BuilderDebType(dir, env).end.Crashed? <==>
      !DirectoryExists(env, dir) ||
      (StructureOk(env.dirs[dir].children) && !TarballsCreatable(env.dirs[dir].children))
    ensures !DirectoryExists(env, dir) ==> BuilderDebType(dir, env).end == Crashed(DirectoryNotFound(dir))
    ensures BuilderDebType(dir, env).end.Crashed? && DirectoryExists(env, dir) ==>
      BuilderDebType(dir, env).end.error in {AccessDenied(StreamPath(dir, 0)), AccessDenied(StreamPath(dir, 1))}
  {
    BuilderDebTypeOutcome(dir, env);
    if DirectoryExists(env, dir) && !StructureOk(env.dirs[dir].children) {
      assert BuilderDebType(dir, env) == VerifyStructure(dir, env);
    }
  }

  /** Among the modelled failures, an exception escapes `Main` only from a
      Debian build: for a local directory that cannot be listed, or for a
      staging directory holding a directory named like a temporary tarball. */
  lemma CrashCauses(args: seq<string>, env: Env)
    ensures Dispatch(args, env).end.Crashed? ==>
      && |args| > 0 && args[0] == CreateDebianPackage
      && var dir := if |args| == 2 then args[1] else env.localDir;
        || (|args| != 2 && Dispatch(args, env).end == Crashed(DirectoryNotFound(env.localDir)))
        || (DirectoryExists(env, dir) &&
            Dispatch(args, env).end.error in {AccessDenied(StreamPath(dir, 0)), AccessDenied(StreamPath(dir, 1))})
  {
    if |args| > 0 && args[0] == CreateDebianPackage {
      if |args| == 2 {
        BuilderDebTypeCrash(args[1], env);
      } else {
        BuilderDebTypeCrash(env.localDir, env);
      }
    } else if |args| > 0 && args[0] == ExtractDebianPackage {
      ExtractCommandExits(args, env);
    }
  }

}

=== FILE: scenario.dfy ===
/**
 A sample staging tree: `DEBIAN\control` holding `Package: sample`, an
 empty `DEBIAN\postinst`, and `usr\bin\app`, built with `-b` in the local
 directory. The data tarball is also worked out with `/` full names, as
 `DataTarball` produces them on a Unix host.
 */
module Scenario {
  import opened Text
  import opened FileTree
  import opened TarPolicy
  import opened Builder
  import opened Program
  import ProgramFacts

  const Staged: seq<Node> := [
    Dir("DEBIAN", [File("control", "Package: sample\n"), File("postinst", "")]),
    Dir("usr", [Dir("bin", [File("app", "")])])]

  function Modes(es: seq<Entry>): (r: seq<int>)
    ensures |r| == |es|
    ensures forall k :: 0 <= k < |es| ==> r[k] == es[k].mode
  {
    if es == [] then [] else [es[0].mode] + Modes(es[1..])
  }

  function StagedEnv(root: string): Env {
    Env(root, {}, map[root := Folder(root, Staged)], {})
  }

  const Listing: seq<Node> := [File("control", "Package: sample\n"), File("postinst", "")]
  const Usr: Node := Dir("usr", [Dir("bin", [File("app", "")])])

  lemma StagedStructure()
    ensures Staged == [Dir("DEBIAN", Listing), Usr]
    ensures MetadataListing(Staged) == Some(Listing)
    ensures StructureOk(Staged)
    ensures ControlMembers(Listing) == Listing
    ensures PayloadDirs(Staged) == [Usr]
    ensures TarballsCreatable(Staged)
  {
    assert Find(Staged, ControlTarName).None? by {
      assert |ControlTarName| != |Staged[0].name| && |ControlTarName| != |Staged[1].name|;
    }
    assert Find(Staged, DataTarName).None? by {
      assert |DataTarName| != |Staged[0].name| && |DataTarName| != |Staged[1].name|;
    }
    assert Staged[0].Dir?;
    assert Find(Listing, ControlFileName) == Some(Listing[0]);
    assert ControlMembers(Listing[1..]) == Listing[1..];
    assert PayloadDirs(Staged[1..]) == [Usr];
  }

  /** `-b` on the staged tree writes the two tarballs built from it and then
      assembles the package. */
  lemma StagedDispatch(root: string)
    requires root != ""
    ensures var folder := Folder(root, Staged);
      var ct := BuildControlTarball(root, folder);
      var r := Dispatch(["-b"], StagedEnv(root));
      && ct.Ok?
      && r.end == Returned && |r.steps| == 3
      && r.steps[0] == WriteControlTarball(root, ct.value)
      && r.steps[1] == WriteDataTarball(root, DataTarball(root, folder, Backslash))
      && r.steps[2] == AssembleDeb(root)
  {
    var env := StagedEnv(root);
    var folder := Folder(root, Staged);
    StagedStructure();
    assert env.dirs[root] == folder;
    ProgramFacts.BuildDispatch(["-b"], env);
    assert Dispatch(["-b"], env) == BuilderDebType(root, env);
    assert VerifyStructure(root, env) == Continue([]);
    assert BuildControlTarball(root, folder).Ok?;
    assert BuildDataTarball(root, folder, Backslash) == Ok(DataTarball(root, folder, Backslash));
  }

  /** A file whose full name has no `/` and whose own name does not end in
      `.exe` gets the plain mode. */
  lemma PlainWithoutSlash(parent: string, name: string, sep: char)
    requires '/' !in parent && '/' !in name && sep != '/'
    requires |ExecutableSuffix| <= |name| && !EndsWith(name, ExecutableSuffix)
    ensures PolicyMode(RegularFile, Combine(parent, name, sep)) == PlainMode
  {
    var path := Combine(parent, name, sep);
    assert ExecutableDirectory[0] == '/';
    AbsentCharExcludes(path, ExecutableDirectory, '/');
    EndsWithWithin(path, name, ExecutableSuffix);
  }

  lemma SampleNames()
    ensures '/' !in MetadataDirectory
    ensures '/' !in Listing[0].name && !EndsWith(Listing[0].name, ExecutableSuffix)
    ensures '/' !in Listing[1].name && !EndsWith(Listing[1].name, ExecutableSuffix)
  {
  }

  /** The sample's control tarball: named after the `Package:` line, with
      one entry per maintainer file. */
  lemma SampleControlTarball(root: string)
    ensures var ct := BuildControlTarball(root, Folder(root, Staged));
      var meta := Combine(root, MetadataDirectory, Backslash);
      && ct.Ok?
      && ct.value.debFileName == " sample.deb"
      && |ct.value.tar.entries| == 2
      && (forall k :: 0 <= k < 2 ==>
            ct.value.tar.entries[k].path == Combine(meta, Listing[k].name, Backslash) &&
            ct.value.tar.entries[k].kind == RegularFile &&
            FollowsPolicy(ct.value.tar.entries[k]))
  {
    StagedStructure();
    assert ReadControl(root, Staged) == Ok("Package: sample\n");
    ControlFile.SampleControlName();
  }

  /** Below a root without `/`, both maintainer files of the sample get 644. */
  lemma SampleControlPlain(root: string)
    requires '/' !in root
    ensures var ct := BuildControlTarball(root, Folder(root, Staged));
      && ct.Ok?
      && ct.value.debFileName == " sample.deb"
      && |ct.value.tar.entries| == 2
      && ct.value.tar.entries[0].mode == PlainMode
      && ct.value.tar.entries[1].mode == PlainMode
  {
    SampleControlTarball(root);
    SampleNames();
    var meta := Combine(root, MetadataDirectory, Backslash);
    assert '/' !in meta;
    PlainWithoutSlash(meta, Listing[0].name, Backslash);
    PlainWithoutSlash(meta, Listing[1].name, Backslash);
  }

  /** The entries of `usr`: the directory, `usr/bin`, then the file `app`. */
  lemma UsrEntries(root: string, sep: char)
    ensures var r := AddToTar(Usr, root, sep);
      |r| == 3 &&
      r[0].kind == Directory && r[1].kind == Directory &&
      r[2].kind == RegularFile && r[2].path == AppPath(root, sep)
  {
    var usr := Combine(root, "usr", sep);
    var bin := Combine(usr, "bin", sep);
    var app := File("app", "");
    assert AddAll([app], bin, sep) == AddToTar(app, bin, sep);
    assert AddAll([Dir("bin", [app])], usr, sep) == AddToTar(Dir("bin", [app]), usr, sep);
  }

  /** The data entries of the sample: `usr`, `usr/bin`, then the file `app`. */
  lemma SampleDataEntries(root: string, sep: char)
    ensures var entries := DataTarball(root, Folder(root, Staged), sep).entries;
      |entries| == 3 &&
      entries[0].kind == Directory && entries[1].kind == Directory &&
      entries[2].kind == RegularFile &&
      entries[2].path == AppPath(root, sep)
  {
    StagedStructure();
    assert AddAll([Usr], root, sep) == AddToTar(Usr, root, sep);
    UsrEntries(root, sep);
  }

  /** The full name of `app` below `root`. */
  function AppPath(root: string, sep: char): string {
    Combine(Combine(Combine(root, "usr", sep), "bin", sep), "app", sep)
  }

  /** With `/` separators the full name of `app` contains `/usr/bin/`. */
  lemma UnixAppExecutable(root: string)
    requires root != [] && root[|root| - 1] != '/'
    ensures PolicyMode(RegularFile, AppPath(root, '/')) == ExecutableMode
  {
    var usr := Combine(root, "usr", '/');
    var bin := Combine(usr, "bin", '/');
    var path := Combine(bin, "app", '/');
    assert usr == root + "/usr";
    assert bin == root + "/usr/bin";
    assert path == root + "/usr/bin/app";
    assert path[|root|..|root| + |ExecutableDirectory|] == ExecutableDirectory;
    assert OccursAt(path, ExecutableDirectory, |root|);
  }

  /** With `\` separators and no `/` in the root, `app` is a plain file. */
  lemma WindowsAppPlain(root: string)
    requires '/' !in root
    ensures PolicyMode(RegularFile, AppPath(root, '\\')) == PlainMode
  {
    var usr := Combine(root, "usr", '\\');
    var bin := Combine(usr, "bin", '\\');
    var path := Combine(bin, "app", '\\');
    assert bin[|bin| - 1] == 'n';
    assert path == bin + "\\app";
    assert '/' !in path;
    AbsentCharExcludes(path, ExecutableDirectory, '/');
    EndsWithConcat(bin, "\\app", ExecutableSuffix);
  }

  /** The mode sequence of two entries. */
  lemma ModesOfTwo(es: seq<Entry>)
    requires |es| == 2
    ensures Modes(es) == [es[0].mode, es[1].mode]
  {
  }

  /** The mode sequence of three entries. */
  lemma ModesOfThree(es: seq<Entry>)
    requires |es| == 3
    ensures Modes(es) == [es[0].mode, es[1].mode, es[2].mode]
  {
  }

  /** The sample's control tarball is named ` sample.deb`, and both
      maintainer files get 644, for any staging root without `/`. */
  lemma SampleControl(root: string)
    requires '/' !in root
    ensures var ct := BuildControlTarball(root, Folder(root, Staged));
      && ct.Ok?
      && ct.value.debFileName == " sample.deb"
      && Modes(ct.value.tar.entries) == [644, 644]
  {
    SampleControlPlain(root);
    ModesOfTwo(BuildControlTarball(root, Folder(root, Staged)).value.tar.entries);
  }

  /** With `/` full names, as on a Unix host, every data entry of the sample
      is 755: `usr/bin/app` passes the `/usr/bin/` test. */
  lemma UnixSampleData(root: string)
    requires root != [] && root[|root| - 1] != '/'
    ensures Modes(DataTarball(root, Folder(root, Staged), '/').entries) == [755, 755, 755]
  {
    SampleDataEntries(root, '/');
    UnixAppExecutable(root);
    ModesOfThree(DataTarball(root, Folder(root, Staged), '/').entries);
  }

  /** The whole `-b` run: the control tarball ` sample.deb` with two plain
      entries, then a data tarball in which `usr\bin\app` is not executable. */
  lemma WindowsSampleBuild(root: string)
    requires root != [] && '/' !in root
    ensures var r := Dispatch(["-b"], StagedEnv(root));
      && r.end == Returned && |r.steps| == 3
      && r.steps[0].WriteControlTarball? && r.steps[1].WriteDataTarball?
      && r.steps[2] == AssembleDeb(root)
      && r.steps[0].control.debFileName == " sample.deb"
      && Modes(r.steps[0].control.tar.entries) == [644, 644]
      && Modes(r.steps[1].data.entries) == [755, 755, 644]
  {
    StagedDispatch(root);
    SampleControl(root);
    WindowsSampleData(root);
  }

  /** With `\` full names `usr\bin\app` fails both tests and gets 644. */
  lemma WindowsSampleData(root: string)
    requires '/' !in root
    ensures Modes(DataTarball(root, Folder(root, Staged), Backslash).entries) == [755, 755, 644]
  {
    SampleDataEntries(root, Backslash);
    WindowsAppPlain(root);
    ModesOfThree(DataTarball(root, Folder(root, Staged), Backslash).entries);
  }

  /** `VerifyStructure` counts `DEBIAN` itself as the required subdirectory. */
  lemma MetadataAloneIsEnough()
    ensures StructureOk([Dir("DEBIAN", [File("control", "")])])
  {
    var ns := [Dir("DEBIAN", [File("control", "")])];
    assert ns[0].Dir?;
  }

  /** Without `DEBIAN\control` the build exits with 400 and writes nothing. */
  lemma MissingControlStops()
    ensures var r := Dispatch(["-b"], Env("C:\\p", {}, map["C:\\p" := Folder("C:\\p", [Usr])], {}));
      r.end == Exited(400) && r.steps == [PrintMessage(StructFailureMessage)]
  {
    var env := Env("C:\\p", {}, map["C:\\p" := Folder("C:\\p", [Usr])], {});
    assert Dispatch(["-b"], env) == BuilderDebType("C:\\p", env);
    assert Find([Usr], MetadataDirectory) == None;
    assert !StructureOk([Usr]);
  }
}

=== FILE: tarpolicy.dfy ===
/**
 The entry policy of `Builder.AddToTar`: one tar entry per filesystem node,
 written before the node's children (pre-order), with ownership forced to
 root and a mode chosen from the node kind and its full path.

 The byte encoding of tar headers and the stripping of the archive root
 from entry names happen inside the tar library and are not modelled: an
 entry carries the node's full name.
 */
module TarPolicy {
  import opened Text
  import opened FileTree

  datatype Kind = RegularFile | Directory

  datatype Entry = Entry(
    path: string,
    kind: Kind,
    mode: int,
    userId: int,
    groupId: int,
    userName: string,
    groupName: string)

  /** The source writes `0755` and `0644`; C# has no octal literals, so these
      are the decimal numbers seven hundred fifty-five and six hundred forty-four. */
  const ExecutableMode: int := 755
  const PlainMode: int := 644

  const ExecutableDirectory: string := "/usr/bin/"
  const ExecutableSuffix: string := ".exe"

  predicate RootOwned(e: Entry) {
    e.userId == 0 && e.groupId == 0 && e.userName == "root" && e.groupName == "root"
  }

  /** The file test of the policy: a plain substring test for `/usr/bin/` on
      the full name, or the `.exe` suffix. */
  predicate ExecutablePath(path: string) {
    Contains(path, ExecutableDirectory) || EndsWith(path, ExecutableSuffix)
  }

  /** The mode the policy assigns to an entry of the given kind and path. */
  function PolicyMode(kind: Kind, path: string): (m: int)
    ensures m == ExecutableMode || m == PlainMode
    ensures kind == Directory ==> m == ExecutableMode
    ensures kind == RegularFile ==> (m == ExecutableMode <==> ExecutablePath(path))
  {
    if kind == RegularFile then
      if ExecutablePath(path) then ExecutableMode else PlainMode
    else ExecutableMode
  }

  predicate FollowsPolicy(e: Entry) {
    RootOwned(e) && e.mode == PolicyMode(e.kind, e.path)
  }

  function KindOf(n: Node): Kind {
    if n.File? then RegularFile else Directory
  }

  /** The entry written for one node whose full name is `full`. */
  function EntryFor(n: Node, full: string): (e: Entry)
    ensures FollowsPolicy(e)
    ensures e.path == full && e.kind == KindOf(n)
  {
    var kind := KindOf(n);
    Entry(full, kind, PolicyMode(kind, full), 0, 0, "root", "root")
  }

  /** `AddToTar(arch, info)` for a node inside the directory whose full name
      is `parent`: the node's entry, then (for a directory) the entries of
      its children in enumeration order. */
  function AddToTar(n: Node, parent: string, sep: char): (r: seq<Entry>)
    ensures |r| == Count(n)
    ensures r[0].path == Combine(parent, n.name, sep) && r[0].kind == KindOf(n)
    ensures forall i :: 0 <= i < |r| ==> FollowsPolicy(r[i])
    ensures forall i :: 0 <= i < |r| ==> StartsWith(r[i].path, r[0].path)
    ensures n.Dir? ==> r[1..] == AddAll(n.children, r[0].path, sep)
  {
    var full := Combine(parent, n.name, sep);
    match n
    case File(_, _) => [EntryFor(n, full)]
    case Dir(_, cs) => [EntryFor(n, full)] + AddAll(cs, full, sep)
  }

  /** `AddToTar` applied to each node of a listing in turn. */
  function AddAll(ns: seq<Node>, parent: string, sep: char): (r: seq<Entry>)
    ensures |r| == CountAll(ns)
    ensures forall i :: 0 <= i < |r| ==> FollowsPolicy(r[i])
    ensures forall i :: 0 <= i < |r| ==> StartsWith(r[i].path, parent)
  {
    if ns == [] then []
    else
      var head := AddToTar(ns[0], parent, sep);
      var tail := AddAll(ns[1..], parent, sep);
      forall i | 0 <= i < |head|
        ensures StartsWith(head[i].path, parent)
      {
        StartsWithTrans(head[i].path, head[0].path, parent);
      }
      head + tail
  }

  /** The order of `AddAll` is the order of the listing: two listings in a
      row give the first one's entries and then the second one's, and a
      single node gives exactly its own subtree. So every subtree is written
      in one contiguous block, in enumeration order. */
  lemma {:induction false} AddAllKeepsOrder(a: seq<Node>, b: seq<Node>, n: Node, parent: string, sep: char)
    ensures AddAll(a + b, parent, sep) == AddAll(a, parent, sep) + AddAll(b, parent, sep)
    ensures AddAll([n], parent, sep) == AddToTar(n, parent, sep)
  {
    assert [n][1..] == [];
    if a == [] {
      assert a + b == b;
    } else {
      assert (a + b)[0] == a[0];
      assert (a + b)[1..] == a[1..] + b;
      AddAllKeepsOrder(a[1..], b, n, parent, sep);
    }
  }

  /** Some entry of `r` has the given path and kind. */
  predicate HasEntry(r: seq<Entry>, path: string, kind: Kind) {
    exists i :: 0 <= i < |r| && r[i].path == path && r[i].kind == kind
  }

  /** Entries keep being found when more entries are written in front. */
  lemma HasEntryAfter(head: seq<Entry>, tail: seq<Entry>, path: string, kind: Kind)
    requires HasEntry(tail, path, kind)
    ensures HasEntry(head + tail, path, kind)
  {
    var i :| 0 <= i < |tail| && tail[i].path == path && tail[i].kind == kind;
    assert (head + tail)[|head| + i] == tail[i];
  }

  /** Every node of a listing has its own entry, at the full name
      `Combine(parent, name)`, with the node's kind. */
  lemma {:induction false} AddAllCoversListing(ns: seq<Node>, parent: string, sep: char, k: nat)
    requires k < |ns|
    ensures HasEntry(AddAll(ns, parent, sep), Combine(parent, ns[k].name, sep), KindOf(ns[k]))
  {
    var head := AddToTar(ns[0], parent, sep);
    var tail := AddAll(ns[1..], parent, sep);
    assert AddAll(ns, parent, sep) == head + tail;
    if k == 0 {
      assert (head + tail)[0] == head[0];
    } else {
      AddAllCoversListing(ns[1..], parent, sep, k - 1);
      assert ns[1..][k - 1] == ns[k];
      HasEntryAfter(head, tail, Combine(parent, ns[k].name, sep), KindOf(ns[k]));
    }
  }

  /** The entry's path extends the full name of node `n` inside `parent`. */
  predicate UnderNode(e: Entry, parent: string, n: Node, sep: char) {
    StartsWith(e.path, Combine(parent, n.name, sep))
  }

  /** Every entry produced from a listing is an entry of the subtree of one
      node of that listing, and so its path extends that node's full name:
      nothing but the listed subtrees is written. */
  lemma {:induction false} AddAllWithinListing(ns: seq<Node>, parent: string, sep: char, i: nat)
    requires i < |AddAll(ns, parent, sep)|
    ensures exists k, j ::
      0 <= k < |ns| && 0 <= j < |AddToTar(ns[k], parent, sep)| &&
      AddAll(ns, parent, sep)[i] == AddToTar(ns[k], parent, sep)[j]
    ensures exists k :: 0 <= k < |ns| && UnderNode(AddAll(ns, parent, sep)[i], parent, ns[k], sep)
  {
    var head := AddToTar(ns[0], parent, sep);
    var r := AddAll(ns, parent, sep);
    assert r == head + AddAll(ns[1..], parent, sep);
    if i < |head| {
      assert r[i] == head[i];
      assert UnderNode(r[i], parent, ns[0], sep);
    } else {
      AddAllWithinListing(ns[1..], parent, sep, i - |head|);
      var k, j :| 0 <= k < |ns[1..]| && 0 <= j < |AddToTar(ns[1..][k], parent, sep)| &&
        AddAll(ns[1..], parent, sep)[i - |head|] == AddToTar(ns[1..][k], parent, sep)[j];
      assert r[i] == AddAll(ns[1..], parent, sep)[i - |head|];
      assert ns[1..][k] == ns[k + 1];
      assert r[i] == AddToTar(ns[k + 1], parent, sep)[j];
      assert UnderNode(r[i], parent, ns[k + 1], sep) by {
        StartsWithTrans(r[i].path, AddToTar(ns[k + 1], parent, sep)[0].path, Combine(parent, ns[k + 1].name, sep));
      }
    }
  }

  /** If neither the starting directory nor any name contains `c`, no entry
      path does unless `c` is the separator itself. */
  lemma {:induction false} PathsAvoid(n: Node, parent: string, sep: char, c: char)
    requires c != sep && c !in parent && NamesAvoid(n, c)
    ensures forall i :: 0 <= i < |AddToTar(n, parent, sep)| ==> c !in AddToTar(n, parent, sep)[i].path
    decreases n, 1
  {
    var full := Combine(parent, n.name, sep);
    assert c !in full;
    if n.Dir? {
      PathsAvoidAll(n.children, full, sep, c);
    }
  }

  lemma {:induction false} PathsAvoidAll(ns: seq<Node>, parent: string, sep: char, c: char)
    requires c != sep && c !in parent
    requires forall k :: 0 <= k < |ns| ==> NamesAvoid(ns[k], c)
    ensures forall i :: 0 <= i < |AddAll(ns, parent, sep)| ==> c !in AddAll(ns, parent, sep)[i].path
    decreases ns, 0
  {
    if ns != [] {
      PathsAvoid(ns[0], parent, sep, c);
      PathsAvoidAll(ns[1..], parent, sep, c);
    }
  }

  /** On Windows full names use `\`, so the `/usr/bin/` test never matches:
      of all files only those whose name ends in `.exe` become executable. */
  lemma WindowsOnlyExeIsExecutable(n: Node, parent: string)
    requires '/' !in parent && NamesAvoid(n, '/')
    ensures forall e :: e in AddToTar(n, parent, Separator(Windows)) && e.kind == RegularFile ==>
      (e.mode == ExecutableMode <==> EndsWith(e.path, ExecutableSuffix))
  {
    var r := AddToTar(n, parent, Separator(Windows));
    PathsAvoid(n, parent, Separator(Windows), '/');
    forall i | 0 <= i < |r|
      ensures !Contains(r[i].path, ExecutableDirectory)
    {
      assert ExecutableDirectory[0] == '/';
      AbsentCharExcludes(r[i].path, ExecutableDirectory, '/');
    }
  }
}

=== FILE: text.dfy ===
/**
 Ordinal string predicates used by the packager: prefix, suffix and
 substring tests as .NET's `StartsWith`, `EndsWith` and `Contains` perform
 them when no culture rules apply.
 */
module Text {

  /** `sub` occurs in `s` starting at index `i`. */
  predicate OccursAt(s: string, sub: string, i: int) {
    0 <= i && i + |sub| <= |s| && s[i..i + |sub|] == sub
  }

  /** Ordinal substring test (String.Contains). */
  predicate Contains(s: string, sub: string) {
    exists i | 0 <= i <= |s| - |sub| :: OccursAt(s, sub, i)
  }

  predicate StartsWith(s: string, prefix: string) {
    |prefix| <= |s| && s[..|prefix|] == prefix
  }

  predicate EndsWith(s: string, suffix: string) {
    |suffix| <= |s| && s[|s| - |suffix|..] == suffix
  }

  /** Being a prefix is transitive. */
  lemma StartsWithTrans(s: string, m: string, p: string)
    requires StartsWith(s, m) && StartsWith(m, p)
    ensures StartsWith(s, p)
  {
    assert s[..|p|] == s[..|m|][..|p|];
  }

  /** Extending a string on the right keeps its prefixes. */
  lemma StartsWithAppend(s: string, t: string, p: string)
    requires StartsWith(s, p)
    ensures StartsWith(s + t, p)
  {
    assert (s + t)[..|p|] == s[..|p|];
  }

  /** A string lacking some character of `sub` cannot contain `sub`. */
  lemma AbsentCharExcludes(s: string, sub: string, c: char)
    requires c in sub && c !in s
    ensures !Contains(s, sub)
  {
    var k :| 0 <= k < |sub| && sub[k] == c;
    forall i | 0 <= i <= |s| - |sub|
      ensures !OccursAt(s, sub, i)
    {
      assert s[i..i + |sub|][k] == s[i + k];
      assert s[i + k] in s;
    }
  }

  /** A suffix no longer than the right operand is decided by that operand alone. */
  lemma EndsWithConcat(a: string, b: string, suffix: string)
    requires |suffix| <= |b|
    ensures EndsWith(a + b, suffix) <==> EndsWith(b, suffix)
  {
    assert (a + b)[|a + b| - |suffix|..] == b[|b| - |suffix|..];
  }

  /** Of two suffixes of `s`, the shorter is decided by the longer. */
  lemma EndsWithWithin(s: string, t: string, suffix: string)
    requires EndsWith(s, t) && |suffix| <= |t|
    ensures EndsWith(s, suffix) <==> EndsWith(t, suffix)
  {
    assert s[|s| - |suffix|..] == s[|s| - |t|..][|t| - |suffix|..];
  }
}
